=== FILE: README.md ===
# Supermarket point-of-sale server: a Dafny model of its sales and catalog logic

The server keeps a supermarket's data in SQLite and exposes it through
Express routes. This project models the business logic of two route files
over an in-memory copy of the tables it touches:

- `products`, `sales`, `sale_items`, `daily_sales_summary`, `audit_logs`;
- **sale creation** (`POST /sales`): request validation; a per-line lookup
  and stock check; pricing into line items and a total; the sale row, its
  items and the stock decrements; the upsert of today's summary row; and
  the `CREATE_SALE` audit entry. Every failure the model covers (validation,
  a missing product, short stock, a taken receipt number) rolls everything back;
- the **sales reads**: the filtered, newest-first sales list, one sale with
  its items, and the zero-filled daily summary;
- **catalog maintenance** (`/products`): create (validation, unique barcode),
  update (every field but the barcode), delete, the filtered name-ordered
  list and the lookup by id. Each successful change appends an audit entry.

Money is in integer cents, which is what the `DECIMAL(10,2)` columns hold.
Ids are integers drawn from AUTOINCREMENT counters that start at 1. Dates
are ISO `YYYY-MM-DD` strings and compare as text, as SQLite compares them.
The receipt number and today's date are parameters, not clock or random
reads.

Modules:

- `Wrappers`: `Option` and `Result`.
- `Text`: express-validator's `trim()`; SQLite's `LIKE '%…%'`, which ignores
  case for ASCII letters only; and SQLite's BINARY collation.
- `Schema`: the rows and enumerations of `database/init.js`.
- `Catalog`: the pure parts of `routes/products.js`.
- `Checkout`: the pure parts of `routes/sales.js`, and the pricing loop.
- `Summaries`: the daily summary upsert and read.
- `Store`: the tables as a `Database` class. Each route is a method that
  changes the fields in place. Each method is specified by a pure transition
  (`CreateSaleStep`, `CreateProductStep`, …) from the old tables to the new
  tables and the answer. The route's guarantees are proved as lemmas about
  those transitions.

The store follows the code as written in the two places where verification
exposes a defect: the per-line stock check and the replacing summary upsert.
The corrected behaviour is defined beside each one and proved; see
"## Findings".

## Model

| member | source | states |
|---|---|---|
| Text.Trim | routes/products.js:64-66 | The trimmed text is never longer than the input. It is empty exactly when the input is all white space (JavaScript's `\s` set). Otherwise it neither starts nor ends with white space. |
| Text.TrimKeepsMiddle | routes/products.js:64-66 | The trimmed text is a contiguous piece of the input, and what lies before and after it is all white space: trimming removes only edge white space and keeps the middle as it was. |
| Text.TrimStartDropsBlankPrefix | routes/products.js:64 | Trimming the front removes a prefix made only of white space and stops at the first character that is not white space. |
| Text.TrimEndDropsBlankSuffix | routes/products.js:64 | Trimming the back removes a suffix made only of white space and stops at the last character that is not white space. |
| Text.LikeIffWindow | routes/products.js:14-17 | `x LIKE '%s%'` holds exactly when some window of `x` equals `s`, ignoring ASCII case. |
| Text.LexLeTotal | routes/products.js:28 | Any two names are ordered one way or the other under BINARY collation. |
| Text.LexLeTransitive | routes/products.js:28 | The BINARY collation order is transitive. |
| Schema.ParseMethod | routes/sales.js:101 | A payment method is accepted only when its text is one of the five enumerated names, and the parsed method carries that name. |
| Schema.ParseMethodName | database/init.js:55 | Each of the five methods parses back from its own name, so all five are accepted. |
| Schema.WithColumn | database/init.js:100-105 | Setting one method's `*_sales` column sets that column and leaves the other columns and the totals alone. |
| Catalog.FieldErrors | routes/products.js:64-78 | A field is reported exactly when its check fails: name, barcode or category blank after trimming, a negative price, stock or min_stock. No field is reported exactly when the body is well formed. |
| Catalog.FindProduct | routes/products.js:43-60 | A found product is a row of the table with the requested id. Not found happens exactly when no row has the id. |
| Catalog.FindProductUnique | database/init.js:33 | When ids are unique, looking up a row's id returns that row. |
| Catalog.ApplyUpdate | routes/products.js:132-137 | The table keeps its length. The row with the id gets the new name, category, price, stock, min_stock, expiry date, supplier and description, and keeps its barcode. Every other row is unchanged. |
| Catalog.RemoveRowRemovesExactly | routes/products.js:165 | A delete drops every row with the id and keeps every other row as often as it occurred. |
| Catalog.Select | routes/products.js:9-26 | The query keeps exactly the rows that match every given filter (search in name or barcode, equal category, low stock when `low_stock` is `'true'`), each as often as it occurs. |
| Catalog.SortByNameCorrect | routes/products.js:28 | Ordering by name yields a sorted permutation of its input. |
| Catalog.ListProducts | routes/products.js:9-40 | The list is sorted by name. It holds exactly the matching products, as often as the table does. A product is listed if and only if it is stored and matches. |
| Checkout.QuantityErrors | routes/sales.js:100 | A quantity message names line i exactly when line i's quantity is below 1, and there is no other message. |
| Checkout.QuantityErrorsIncreasing | routes/sales.js:100 | The quantity messages name their lines in strictly increasing order, so there is one message per failing line. |
| Checkout.RequestErrors | routes/sales.js:97-112 | No message is produced exactly when the basket is non-empty, every quantity is at least 1 and the payment method is one of the five. |
| Checkout.RequestErrorsReported | routes/sales.js:98-101 | "At least one item" appears exactly when the basket is empty. A quantity message names line i exactly when its quantity is below 1. "Invalid payment method" appears exactly when the method is not one of the five. |
| Checkout.PriceLine | routes/sales.js:128-161 | A line is priced exactly when its product exists and its stock covers the quantity. A missing product answers `ProductNotFound` with the requested id. A short stock answers `InsufficientStock` with the product's name, its stock and the quantity requested. A priced line carries the product id, the quantity, the product's current price and price × quantity. |
| Checkout.PriceBasketOk | routes/sales.js:127-171 | Pricing succeeds exactly when every line passes against the stock as it was before the sale. Each priced line then has its line's product and quantity, the product's current price as unit price, and unit price × quantity as total. |
| Checkout.PriceBasketFirstFailure | routes/sales.js:127-151 | A failed basket reports the error of its first line that fails, and every earlier line passes. |
| Checkout.PriceBasketPrefixFailure | routes/sales.js:127-151 | A failure within a prefix of the basket is the failure of the whole basket: later lines cannot change it. |
| Checkout.PriceItems | routes/sales.js:122-171 | The loop fails exactly when the basket fails, with the same error. On success it yields the priced lines and their running total. |
| Checkout.SoldIsRequested | routes/sales.js:153-161 | The quantity the priced lines take of a product is what the basket asks of it. |
| Checkout.Decrement | routes/sales.js:202-204 | One stock update lowers the stock of the rows with the id by the quantity and leaves every other row unchanged. |
| Checkout.ApplyLinesStock | routes/sales.js:186-211 | After all the updates, every row is its old self with its stock lowered by the total quantity the lines took of it. |
| Checkout.CumulativeCheckKeepsStock | routes/sales.js:145-151 | Corrected check: when each line's product covers that line plus all earlier lines for the same product, no stock ends negative. |
| Checkout.DistinctBasketChecksCumulatively | routes/sales.js:145-151 | When no product appears twice in the basket, the per-line check as written is exactly the cumulative check. |
| Checkout.DistinctSaleKeepsStock | routes/sales.js:145-204 | A sale whose basket names each product at most once leaves every stock non-negative. |
| Checkout.RepeatedProductOversells | routes/sales.js:145-151 | A product with 1 in stock and a basket naming it twice with quantity 1 is priced successfully and leaves the stock at -1. The cumulative check rejects that basket. |
| Checkout.ItemsFor | routes/sales.js:189-194 | Line item i gets the i-th consecutive id and the sale's id, plus the product, quantity, unit price and total of line i. |
| Checkout.SaleTotalIsItemsTotal | routes/sales.js:153-194 | The sale's total is the sum of the `total_price` of the items written for it. |
| Checkout.ListSalesSelects | routes/sales.js:8-37 | The sales list keeps exactly the sales that satisfy every given filter (start date, end date, cashier, payment method), each as often as it is stored. |
| Checkout.ListSalesNewestFirst | routes/sales.js:38 | When the stored ids increase, the listed sales come in decreasing id order, newest first. |
| Checkout.ListedSaleIsStored | routes/sales.js:8-37 | Every listed sale is stored and matches the query. |
| Checkout.FindSale | routes/sales.js:56-69 | A found sale is stored and has the id. Not found happens exactly when no sale has the id. |
| Checkout.ItemDetails | routes/sales.js:72-77 | A detail is returned if and only if its item belongs to the sale, its product still exists, and it carries that product's current name and barcode. |
| Checkout.ItemDetailsCounts | routes/sales.js:72-77 | Each joined detail occurs exactly as often as its item is stored, and nothing else occurs: the inner JOIN returns each matching item once. |
| Checkout.GetSale | routes/sales.js:53-94 | Not found happens exactly when no sale has the id. Otherwise the answer is that stored sale and the items of `ItemDetails`: each of its items whose product still exists, once, with that product's name and barcode. |
| Summaries.ReplacedRow | routes/sales.js:249-259 | As written, the upsert adds the amount to `total_sales` and to the paid method's column, adds 1 to `total_transactions`, and leaves every other method's column at 0. |
| Summaries.AccumulatedRow | routes/sales.js:245-262 | Corrected upsert: the same three increments, with every other method's column kept. |
| Summaries.AccumulatedRowKeepsBalance | routes/sales.js:245-262 | With the corrected upsert, a row whose total equals the sum of its five method columns keeps that property. |
| Summaries.ReplacedRowLosesOtherMethods | routes/sales.js:250-256 | A cash sale of 100 then a card sale of 50 on a new day leave `cash_sales` at 0 and an unbalanced row as written. The corrected upsert yields 100, 50 and a balanced row. |
| Summaries.TallyIsSumOfSales | routes/sales.js:245-262 | With the corrected upsert, a day's row is the sum of its sales, the count of its sales, and each method's sum. |
| Summaries.TallyAsWrittenKeepsTotals | routes/sales.js:245-262 | As written, a day's total and count are still right. Every method other than the last sale's method reads 0. A day paid by one method only is summed correctly. |
| Summaries.ReadSummary | routes/sales.js:267-299 | The date read is the `date` parameter when it is given and not empty, and today otherwise. The read returns the stored row for that date. When there is none, it returns the all-zero record for that date. |
| Summaries.ReadAfterSale | routes/sales.js:245-299 | After a sale on day d, d's reading has moved by the amount and one transaction and its other method columns are 0. Every other date reads as before. |
| Summaries.ReadAfterAccumulatedSale | routes/sales.js:245-262 | With the corrected upsert, a sale on day d moves d's reading by the amount and one transaction and keeps the other methods' columns. Every other date reads as before. |
| Summaries.UpsertKeepsBalance | routes/sales.js:245-262 | With the corrected upsert, when every stored day is balanced (total equals the sum of the five method columns), every day is still balanced after a sale. |
| Store.CreateProductOutcome | routes/products.js:63-110 | An invalid body reports its fields, and a taken trimmed barcode reports a duplicate. Either failure changes nothing. A create succeeds exactly when the body is valid and its trimmed barcode is free. A success answers the counter's id, which no row had, adds one trimmed row with it, and adds one `CREATE_PRODUCT` entry carrying that id. |
| Store.UpdateProductOutcome | routes/products.js:113-159 | An invalid body, or an id that no row has, changes nothing. An update succeeds exactly when the body is valid and some row has the id, and it answers that id. On success the row with the id gets the new fields and keeps its id and barcode, the other rows stay, and one `UPDATE_PRODUCT` entry is appended. |
| Store.DeleteProductOutcome | routes/products.js:162-185 | Not found happens exactly when no row has the id, and then nothing changes. Afterwards a product is stored if and only if it was stored and has another id. A success appends one `DELETE_PRODUCT` entry. |
| Store.CreateProductKeepsValid | database/init.js:32-46 | A create keeps ids increasing and below the counter and keeps barcodes unique. |
| Store.UpdateProductKeepsValid | routes/products.js:132-137 | An update keeps the products table's constraints, because it changes no id and no barcode. |
| Store.DeleteProductKeepsValid | routes/products.js:165 | A delete keeps the products table's constraints. |
| Store.CreateProductKeepsStock | routes/products.js:68 | A create never leaves a stock negative. |
| Store.UpdateProductKeepsStock | routes/products.js:117 | An update never leaves a stock negative. |
| Store.DeleteProductKeepsStock | routes/products.js:165 | A delete never leaves a stock negative. |
| Store.AppendProductValid | database/init.js:33-35 | Appending a row with the next id and an unused barcode keeps the products table's constraints. |
| Store.RemoveRowMembers | routes/products.js:165 | After a delete, a product is a row if and only if it was a row and has another id. |
| Store.RemoveRowKeepsOrder | routes/products.js:165 | A delete keeps the remaining rows in order, so ids still increase and barcodes stay unique. |
| Store.SaleFailureOutcome | routes/sales.js:104-183 | A sale fails exactly when the request is invalid, some line's product is missing or short of stock, or the receipt number is taken. The validation error comes first, then the first failing line, then `SaleInsertFailed` for a taken receipt number. A failure changes no table. |
| Store.SaleAppendsRows | routes/sales.js:175-233 | A successful sale adds one sale row with the next id, the receipt number, the trimmed customer fields and the total. It keeps the old items and adds one item per basket line. It appends one `CREATE_SALE` entry whose record id is the new sale id. |
| Store.SaleItemsOutcome | routes/sales.js:153-194 | Each new item carries the sale id, its line's product and quantity, the product's price at sale time and price × quantity. The sale's total is the sum of the new items' totals. |
| Store.SaleStockOutcome | routes/sales.js:201-204 | Each product's stock drops by exactly the quantity the basket asks of it, so products outside the basket keep theirs. Nothing else in the table changes. |
| Store.DistinctSaleOutcome | routes/sales.js:145-204 | A successful sale whose basket names each product at most once leaves no stock negative. |
| Store.SaleSummaryOutcome | routes/sales.js:216-262 | Today's row moves by the sale's total and one transaction. The other methods' columns are 0. Every other date's row is unchanged. |
| Store.CreateSaleStepValid | database/init.js:49-76 | Sale creation keeps ids increasing and below their counters in the three keyed tables, and receipt numbers unique. |
| Store.AppendSaleValid | database/init.js:51-52 | Appending a sale with the next id and an unused receipt number keeps the sales table's constraints. |
| Store.AppendItemsValid | database/init.js:66-67 | Appending items with consecutive ids from the counter keeps the item ids increasing and below the new counter. |
| Store.Database.constructor | database/init.js:31-110 | A new database has every table empty and every counter at 1. |
| Store.Database.CreateProduct | routes/products.js:63-110 | The new tables and the answer are those of `CreateProductStep`, and the table constraints still hold. |
| Store.Database.UpdateProduct | routes/products.js:113-159 | The new tables and the answer are those of `UpdateProductStep`, and the table constraints still hold. |
| Store.Database.DeleteProduct | routes/products.js:162-185 | The new tables and the answer are those of `DeleteProductStep`, and the table constraints still hold. |
| Store.Database.WriteLines | routes/sales.js:186-214 | The loop appends the lines' items with consecutive ids and applies every stock decrement. It leaves the sales, summary and audit tables alone. |
| Store.Database.RecordSale | routes/sales.js:175-262 | After the checks, the sale's writes leave exactly the tables `SaleWritten` describes, and the returned id is the counter's old value. |
| Store.Database.CreateSale | routes/sales.js:97-264 | The new tables and the answer are those of `CreateSaleStep`, and the table constraints still hold. |

## Left out

- HTTP is not modelled: Express routing, status codes, JSON shapes, and the extra answer a second failing basket line would attempt after the first has answered. Answers are `Result` values.
- The `requireRole` guard, authentication and `req.user` are not modelled. The acting user's id is a parameter.
- `routes/auth.js`, `routes/users.js`, `routes/audit.js`, `routes/dashboard.js`, `index.js` and the seed data of `database/init.js` are not part of this model.
- SQLite failures other than the constraints modelled are left out: I/O errors, a failing item insert or stock update, a failing summary upsert. Only the UNIQUE barcode and the UNIQUE receipt number are modelled. The source is not atomic for these failures: it commits even when the summary upsert fails (routes/sales.js:216 ignores that statement's error), and after a failing item insert queues its ROLLBACK, later stock updates can run outside the transaction and persist.
- Floating-point prices are not modelled. Prices and totals are integer cents, so `price × quantity` is exact; JavaScript's float products and DECIMAL rounding are left out.
- Non-integer JSON values are not modelled: a `product_id` or `quantity` that is not an integer, a non-numeric price, a non-numeric `cashier_id` query. The types rule them out, so the `items.*.product_id` message has no counterpart.
- Store.CreateProductStep: the node `sqlite3` driver may report a UNIQUE violation with the plain `SQLITE_CONSTRAINT` code, not the `SQLITE_CONSTRAINT_UNIQUE` that routes/products.js:88 tests. A duplicate barcode would then be answered 500 'Database error' instead of 400. The model follows the branch the code evidently intends; the tables are unchanged either way.
- `Catalog.Matches`: a `%` or `_` inside the search text, which LIKE would treat as a wildcard, is not modelled.
- `Checkout.ListSales` and `Checkout.GetSale`: the join with `users` and its `cashier_name` column are not modelled. No route deletes a user, so the join drops no sale.
- `Checkout.ListSales`: `ORDER BY created_at DESC` is taken as newest insertion first, and ties in `created_at` are not modelled.
- `Catalog.SortByName`: the order among rows with equal names is unspecified in SQLite. The contract states sorted and a permutation, not a particular tie order.
- The `created_at`/`updated_at` timestamps, the summary table's own `id`, and the audit log's `old_values`, `new_values`, `ip_address` and `user_agent` are not modelled.
- Receipt numbers from `Date.now()` and `Math.random()`, and today's date from `new Date()`, are inputs.
- Concurrency between requests is not modelled. Each route runs alone as one transaction.

## Findings

| source | as written | input that shows it | evidently intended | confidence | as-written member | corrected member |
|---|---|---|---|---|---|---|
| routes/sales.js:145 | Each basket line is checked against the product's stock as it was before the sale, and the decrements of all lines are applied afterwards. | A product with stock 1 and a basket naming it twice with quantity 1: both lines pass, the sale commits, and the stock becomes -1. | The check covers the quantity the earlier lines of the same basket already took. | not executed | Checkout.RepeatedProductOversells | Checkout.CumulativeCheckKeepsStock |
| routes/sales.js:250-256 | `INSERT OR REPLACE` lists only the paid method's column, so the replacing row has the DEFAULT 0 in the other four method columns. | On a new day, a cash sale of 1.00 then a card sale of 0.50: `cash_sales` becomes 0 while `total_sales` is 1.50. | Increment the paid method's column and keep the others. | not executed | Summaries.ReplacedRowLosesOtherMethods | Summaries.AccumulatedRowKeepsBalance |

`Store.Database.CreateSale` and `Store.CreateSaleStep` keep both behaviours as the code has them. Their lemmas prove what the code does guarantee: no negative stock for baskets without repeated products, and correct day totals and counts. The corrected definitions are `Checkout.CumulativelyAvailable`, `Summaries.AccumulatedRow` and `Summaries.Upsert`. They carry the intended properties: `Checkout.CumulativeCheckKeepsStock`, `Summaries.AccumulatedRowKeepsBalance`, `Summaries.TallyIsSumOfSales`, `Summaries.ReadAfterAccumulatedSale` and `Summaries.UpsertKeepsBalance`.

=== FILE: catalog.dfy ===
/**
 * The product catalog of routes/products.js as functions over the rows of
 * `products` (kept in id order): request validation, the lookups behind
 * GET /:id, the row changes behind POST, PUT and DELETE, and the filtered,
 * name-ordered listing of GET /.
 */
module Catalog {
  import opened Wrappers
  import opened Text
  import opened Schema

  /** The JSON body of POST /products and PUT /products/:id. */
  datatype ProductInput = ProductInput(
    name: string,
    barcode: string,
    category: string,
    price: int,
    stock: int,
    minStock: int,
    expiryDate: Option<string>,
    supplier: Option<string>,
    description: Option<string>)

  /** A body field the validation chain can reject. */
  datatype ProductField = NameField | BarcodeField | CategoryField | PriceField | StockField | MinStockField

  datatype ProductError =
    | InvalidFields(fields: seq<ProductField>)  // 400 'Validation failed'
    | DuplicateBarcode                              // 400 'Product with this barcode already exists'
    | NotFound                                      // 404 'Product not found'

  /**
   * The check the validation chain applies to each field. PUT does not validate
   * (or store) the barcode, which `checkBarcode` switches off.
   */
  predicate Rejects(f: ProductField, input: ProductInput, checkBarcode: bool) {
    match f
    case NameField => Blank(input.name)                     // trim().notEmpty()
    case BarcodeField => checkBarcode && Blank(input.barcode)
    case CategoryField => Blank(input.category)
    case PriceField => input.price < 0                      // isFloat({ min: 0 })
    case StockField => input.stock < 0                      // isInt({ min: 0 })
    case MinStockField => input.minStock < 0
  }

  /** The body passes every check of the validation chain. */
  predicate WellFormed(input: ProductInput, checkBarcode: bool) {
    !Blank(input.name) && (checkBarcode ==> !Blank(input.barcode)) && !Blank(input.category)
    && input.price >= 0 && input.stock >= 0 && input.minStock >= 0
  }

  /** The fields in the order the validation chain declares them. */
  const ChainOrder: seq<ProductField> := [NameField, BarcodeField, CategoryField, PriceField, StockField, MinStockField]

  function RejectedAmong(fields: seq<ProductField>, input: ProductInput, checkBarcode: bool): (r: seq<ProductField>)
    ensures forall f :: f in r <==> f in fields && Rejects(f, input, checkBarcode)
  {
    if fields == [] then []
    else (if Rejects(fields[0], input, checkBarcode) then [fields[0]] else [])
         + RejectedAmong(fields[1..], input, checkBarcode)
  }

  /** The fields the validation chain reports, in its order; none exactly when the body is well formed. */
  function FieldErrors(input: ProductInput, checkBarcode: bool): (r: seq<ProductField>)
    ensures forall f :: f in r <==> Rejects(f, input, checkBarcode)
    ensures r == [] <==> WellFormed(input, checkBarcode)
  {
    ChainCoversEveryField();
    WellFormedIffNothingRejected(input, checkBarcode);
    var r := RejectedAmong(ChainOrder, input, checkBarcode);
    if r != [] then assert r[0] in r; r else r
  }

  lemma ChainCoversEveryField()
    ensures forall f :: f in ChainOrder
  {
    forall f ensures f in ChainOrder {
      match f
      case NameField => assert ChainOrder[0] == f;
      case BarcodeField => assert ChainOrder[1] == f;
      case CategoryField => assert ChainOrder[2] == f;
      case PriceField => assert ChainOrder[3] == f;
      case StockField => assert ChainOrder[4] == f;
      case MinStockField => assert ChainOrder[5] == f;
    }
  }

  lemma WellFormedIffNothingRejected(input: ProductInput, checkBarcode: bool)
    ensures WellFormed(input, checkBarcode) <==> forall f :: !Rejects(f, input, checkBarcode)
  {
    if !WellFormed(input, checkBarcode) {
      if Blank(input.name) { assert Rejects(NameField, input, checkBarcode); }
      else if checkBarcode && Blank(input.barcode) { assert Rejects(BarcodeField, input, checkBarcode); }
      else if Blank(input.category) { assert Rejects(CategoryField, input, checkBarcode); }
      else if input.price < 0 { assert Rejects(PriceField, input, checkBarcode); }
      else if input.stock < 0 { assert Rejects(StockField, input, checkBarcode); }
      else { assert Rejects(MinStockField, input, checkBarcode); }
    }
  }

  /** `SELECT * FROM products WHERE id = ?`. */
  function FindProduct(rows: seq<Product>, id: int): (r: Option<Product>)
    ensures r.Some? ==> r.value in rows && r.value.id == id
    ensures r.None? <==> forall i | 0 <= i < |rows| :: rows[i].id != id
  {
    if rows == [] then None
    else if rows[0].id == id then Some(rows[0])
    else FindProduct(rows[1..], id)
  }

  /** In a table with unique ids, the lookup returns the one row carrying that id. */
  lemma {:induction false} FindProductUnique(rows: seq<Product>, i: int)
    requires 0 <= i < |rows|
    requires forall j, k | 0 <= j < k < |rows| :: rows[j].id != rows[k].id
    ensures FindProduct(rows, rows[i].id) == Some(rows[i])
  {
    if i > 0 {
      FindProductUnique(rows[1..], i - 1);
    }
  }

  predicate BarcodeTaken(rows: seq<Product>, barcode: string) {
    exists i | 0 <= i < |rows| :: rows[i].barcode == barcode
  }

  /** The row POST /products inserts: the `trim()` sanitizer has rewritten the three text fields. */
  function NewRow(id: int, input: ProductInput): Product {
    Product(id, Trim(input.name), Trim(input.barcode), Trim(input.category), input.price,
            input.stock, input.minStock, input.expiryDate, input.supplier, input.description)
  }

  /** A row after the UPDATE of PUT /products/:id; an absent optional field becomes NULL. */
  function UpdatedRow(p: Product, input: ProductInput): Product {
    p.(name := Trim(input.name), category := Trim(input.category), price := input.price,
       stock := input.stock, minStock := input.minStock, expiryDate := input.expiryDate,
       supplier := input.supplier, description := input.description)
  }

  /** `UPDATE products SET … WHERE id = ?` over the whole table. */
  function ApplyUpdate(rows: seq<Product>, id: int, input: ProductInput): (r: seq<Product>)
    ensures |r| == |rows|
    ensures forall i | 0 <= i < |rows| ::
      r[i] == if rows[i].id == id then UpdatedRow(rows[i], input) else rows[i]
  {
    if rows == [] then []
    else [if rows[0].id == id then UpdatedRow(rows[0], input) else rows[0]]
         + ApplyUpdate(rows[1..], id, input)
  }

  /** `DELETE FROM products WHERE id = ?`. */
  function RemoveRow(rows: seq<Product>, id: int): (r: seq<Product>)
    ensures |r| <= |rows|
  {
    if rows == [] then []
    else (if rows[0].id == id then [] else [rows[0]]) + RemoveRow(rows[1..], id)
  }

  /** A delete drops every row with the id and keeps every other row, as often as it occurred. */
  lemma {:induction false} RemoveRowRemovesExactly(rows: seq<Product>, id: int)
    ensures forall p :: multiset(RemoveRow(rows, id))[p] == if p.id == id then 0 else multiset(rows)[p]
  {
    if rows != [] {
      RemoveRowRemovesExactly(rows[1..], id);
      assert rows == [rows[0]] + rows[1..];
    }
  }

  /** The query string of GET /products. */
  datatype ProductQuery = ProductQuery(search: Option<string>, category: Option<string>, lowStock: Option<string>)

  /** The WHERE clause GET /products builds from its query. */
  predicate Matches(p: Product, q: ProductQuery) {
    (Given(q.search) ==> Like(p.name, q.search.value) || Like(p.barcode, q.search.value))
    && (Given(q.category) ==> p.category == q.category.value)
    && (q.lowStock == Some("true") ==> p.stock <= p.minStock)
  }

  /** The rows the WHERE clause keeps, in table order. */
  function Select(rows: seq<Product>, q: ProductQuery): (r: seq<Product>)
    ensures forall p :: multiset(r)[p] == if Matches(p, q) then multiset(rows)[p] else 0
  {
    if rows == [] then []
    else
      assert rows == [rows[0]] + rows[1..];
      (if Matches(rows[0], q) then [rows[0]] else []) + Select(rows[1..], q)
  }

  predicate SortedByName(s: seq<Product>) {
    forall i, j | 0 <= i < j < |s| :: LexLe(s[i].name, s[j].name)
  }

  function InsertByName(p: Product, s: seq<Product>): seq<Product> {
    if s == [] || LexLe(p.name, s[0].name) then [p] + s
    else [s[0]] + InsertByName(p, s[1..])
  }

  /** `ORDER BY name`; rows with equal names keep their table order. */
  function SortByName(s: seq<Product>): seq<Product> {
    if s == [] then [] else InsertByName(s[0], SortByName(s[1..]))
  }

  /** A row no greater than any row of a sorted sequence can go in front of it. */
  lemma PrependSorted(x: Product, s: seq<Product>)
    requires SortedByName(s)
    requires forall k | 0 <= k < |s| :: LexLe(x.name, s[k].name)
    ensures SortedByName([x] + s)
  {
    var r := [x] + s;
    forall i, j | 0 <= i < j < |r| ensures LexLe(r[i].name, r[j].name) {
      assert r[j] == s[j - 1];
      if i > 0 {
        assert r[i] == s[i - 1];
      }
    }
  }

  lemma {:induction false} InsertByNameSorted(p: Product, s: seq<Product>)
    requires SortedByName(s)
    ensures SortedByName(InsertByName(p, s))
    ensures multiset(InsertByName(p, s)) == multiset(s) + multiset{p}
  {
    if s == [] || LexLe(p.name, s[0].name) {
      forall k | 0 <= k < |s| ensures LexLe(p.name, s[k].name) {
        if k > 0 {
          LexLeTransitive(p.name, s[0].name, s[k].name);
        }
      }
      PrependSorted(p, s);
    } else {
      LexLeTotal(p.name, s[0].name);
      InsertByNameSorted(p, s[1..]);
      var rest := InsertByName(p, s[1..]);
      assert s == [s[0]] + s[1..];
      forall k | 0 <= k < |rest| ensures LexLe(s[0].name, rest[k].name) {
        assert rest[k] in multiset(rest);
        if rest[k] != p {
          assert rest[k] in multiset(s[1..]);
          var m :| 0 <= m < |s[1..]| && s[1..][m] == rest[k];
          assert s[m + 1] == rest[k];
        }
      }
      PrependSorted(s[0], rest);
    }
  }

  lemma {:induction false} SortByNameCorrect(s: seq<Product>)
    ensures SortedByName(SortByName(s))
    ensures multiset(SortByName(s)) == multiset(s)
  {
    if s != [] {
      SortByNameCorrect(s[1..]);
      InsertByNameSorted(s[0], SortByName(s[1..]));
      assert s == [s[0]] + s[1..];
    }
  }

  /** GET /products: the matching rows, ordered by name. */
  function ListProducts(rows: seq<Product>, q: ProductQuery): (r: seq<Product>)
    ensures SortedByName(r)
    ensures forall p :: multiset(r)[p] == if Matches(p, q) then multiset(rows)[p] else 0
    ensures forall p :: p in r <==> p in rows && Matches(p, q)
  {
    SortByNameCorrect(Select(rows, q));
    SortByName(Select(rows, q))
  }
}

=== FILE: checkout.dfy ===
/**
 * The computations of routes/sales.js that do not touch the tables: the
 * validation chain of POST /sales, the per-line lookup and stock check, the
 * priced lines and their total, the stock decrement each line applies, the
 * line items written for a sale, and the read-only GET / and GET /:id.
 */
module Checkout {
  import opened Wrappers
  import opened Text
  import opened Schema
  import opened Catalog

  /** One element of the request's `items` array. */
  datatype BasketLine = BasketLine(productId: int, quantity: int)

  /** A message of the validation chain at routes/sales.js:98-101. */
  datatype RequestError = ItemsRequired | QuantityTooSmall(index: int) | InvalidPaymentMethod

  datatype SaleError =
    | InvalidRequest(errors: seq<RequestError>)                               // 400 'Validation failed'
    | ProductNotFound(productId: int)                                        // 400 'Product with ID … not found'
    | InsufficientStock(productName: string, available: int, requested: int) // 400 'Insufficient stock for …'
    | SaleInsertFailed                                                       // 500 'Failed to create sale'

  /** The request passes the validation chain. */
  predicate ValidRequest(basket: seq<BasketLine>, paymentMethod: string) {
    |basket| >= 1
    && (forall i | 0 <= i < |basket| :: basket[i].quantity >= 1)
    && ParseMethod(paymentMethod).Some?
  }

  /** The `items.*.quantity` messages, one per line whose quantity is below 1. */
  function QuantityErrors(basket: seq<BasketLine>): (r: seq<RequestError>)
    ensures forall e :: e in r <==> e.QuantityTooSmall? && 0 <= e.index < |basket| && basket[e.index].quantity < 1
  {
    if basket == [] then []
    else
      var init := basket[..|basket| - 1];
      assert forall i | 0 <= i < |init| :: init[i] == basket[i];
      QuantityErrors(init)
      + (if basket[|basket| - 1].quantity < 1 then [QuantityTooSmall(|basket| - 1)] else [])
  }

  /** The quantity messages name strictly increasing lines, so no line is named twice. */
  lemma {:induction false} QuantityErrorsIncreasing(basket: seq<BasketLine>)
    ensures forall k, l | 0 <= k < l < |QuantityErrors(basket)| ::
      QuantityErrors(basket)[k].QuantityTooSmall? && QuantityErrors(basket)[l].QuantityTooSmall?
      && QuantityErrors(basket)[k].index < QuantityErrors(basket)[l].index
  {
    if basket != [] {
      var init := basket[..|basket| - 1];
      assert forall i | 0 <= i < |init| :: init[i] == basket[i];
      QuantityErrorsIncreasing(init);
      var prev := QuantityErrors(init);
      assert QuantityErrors(basket)
          == prev + (if basket[|basket| - 1].quantity < 1 then [QuantityTooSmall(|basket| - 1)] else []);
      var r := QuantityErrors(basket);
      forall k, l | 0 <= k < l < |r| ensures r[k].QuantityTooSmall? && r[l].QuantityTooSmall? && r[k].index < r[l].index {
        assert r[k] == prev[k] && prev[k] in prev;
        if l >= |prev| {
          assert r[l] == QuantityTooSmall(|basket| - 1);
        } else {
          assert r[l] == prev[l];
        }
      }
    }
  }

  /** The validation chain's messages, in its order; none exactly when the request is valid. */
  function RequestErrors(basket: seq<BasketLine>, paymentMethod: string): (r: seq<RequestError>)
    ensures r == [] <==> ValidRequest(basket, paymentMethod)
  {
    var r := (if basket == [] then [ItemsRequired] else [])
      + QuantityErrors(basket)
      + (if ParseMethod(paymentMethod).None? then [InvalidPaymentMethod] else []);
    assert r != [] ==> r[0] in r;
    assert !ValidRequest(basket, paymentMethod) ==> r != [] by {
      if !ValidRequest(basket, paymentMethod) && basket != [] && ParseMethod(paymentMethod).Some? {
        var i :| 0 <= i < |basket| && basket[i].quantity < 1;
        assert QuantityTooSmall(i) in QuantityErrors(basket);
      }
    }
    r
  }

  /** Each message of the chain is reported exactly when its check fails. */
  lemma RequestErrorsReported(basket: seq<BasketLine>, paymentMethod: string)
    ensures ItemsRequired in RequestErrors(basket, paymentMethod) <==> basket == []
    ensures forall i :: QuantityTooSmall(i) in RequestErrors(basket, paymentMethod) <==>
                        0 <= i < |basket| && basket[i].quantity < 1
    ensures InvalidPaymentMethod in RequestErrors(basket, paymentMethod) <==> ParseMethod(paymentMethod).None?
  {
  }

  /** A basket line after its lookup: `saleItems.push(…)` at routes/sales.js:156-161. */
  datatype PricedLine = PricedLine(productId: int, quantity: int, unitPrice: int, totalPrice: int)

  /** The line's product exists and its stock, as it was before the sale, covers the line. */
  predicate Available(rows: seq<Product>, line: BasketLine) {
    FindProduct(rows, line.productId).Some? && FindProduct(rows, line.productId).value.stock >= line.quantity
  }

  /** The lookup and stock check of one line (routes/sales.js:128-161). */
  function PriceLine(rows: seq<Product>, line: BasketLine): (r: Result<PricedLine, SaleError>)
    ensures r.Ok? <==> Available(rows, line)
    ensures FindProduct(rows, line.productId).None? ==> r == Err(ProductNotFound(line.productId))
    ensures FindProduct(rows, line.productId).Some? && !Available(rows, line) ==>
      var p := FindProduct(rows, line.productId).value;
      r == Err(InsufficientStock(p.name, p.stock, line.quantity))
    ensures r.Ok? ==>
      var p := FindProduct(rows, line.productId).value;
      r.value == PricedLine(line.productId, line.quantity, p.price, p.price * line.quantity)
  {
    match FindProduct(rows, line.productId)
    case None => Err(ProductNotFound(line.productId))
    case Some(p) =>
      if p.stock < line.quantity then Err(InsufficientStock(p.name, p.stock, line.quantity))
      else Ok(PricedLine(p.id, line.quantity, p.price, p.price * line.quantity))
  }

  /**
   * All lines priced in order against the table as it was before the sale;
   * the first line that fails decides the answer.
   */
  function PriceBasket(rows: seq<Product>, basket: seq<BasketLine>): Result<seq<PricedLine>, SaleError> {
    if basket == [] then Ok([])
    else
      match PriceBasket(rows, basket[..|basket| - 1])
      case Err(e) => Err(e)
      case Ok(lines) =>
        match PriceLine(rows, basket[|basket| - 1])
        case Err(e) => Err(e)
        case Ok(l) => Ok(lines + [l])
  }

  /** `totalAmount`: the sum of the lines' `total_price`. */
  function LinesTotal(lines: seq<PricedLine>): int {
    if lines == [] then 0 else LinesTotal(lines[..|lines| - 1]) + lines[|lines| - 1].totalPrice
  }

  /**
   * The basket is priced exactly when every line is available; then there is
   * one priced line per basket line, carrying the product's price at sale
   * time as `unit_price` and `unit_price × quantity` as `total_price`.
   */
  lemma {:induction false} PriceBasketOk(rows: seq<Product>, basket: seq<BasketLine>)
    ensures PriceBasket(rows, basket).Ok? <==> forall i | 0 <= i < |basket| :: Available(rows, basket[i])
    ensures PriceBasket(rows, basket).Ok? ==>
      var lines := PriceBasket(rows, basket).value;
      |lines| == |basket|
      && forall i | 0 <= i < |basket| ::
           lines[i].productId == basket[i].productId
           && lines[i].quantity == basket[i].quantity
           && lines[i].unitPrice == FindProduct(rows, basket[i].productId).value.price
           && lines[i].totalPrice == lines[i].unitPrice * lines[i].quantity
  {
    if basket != [] {
      var init := basket[..|basket| - 1];
      PriceBasketOk(rows, init);
      assert forall i | 0 <= i < |init| :: init[i] == basket[i];
    }
  }

  /** A failed basket names the first line that is not available and that line's error. */
  lemma {:induction false} PriceBasketFirstFailure(rows: seq<Product>, basket: seq<BasketLine>)
    requires PriceBasket(rows, basket).Err?
    ensures exists i | 0 <= i < |basket| ::
      !Available(rows, basket[i])
      && (forall j | 0 <= j < i :: Available(rows, basket[j]))
      && PriceLine(rows, basket[i]) == Err(PriceBasket(rows, basket).error)
  {
    var init := basket[..|basket| - 1];
    assert forall i | 0 <= i < |init| :: init[i] == basket[i];
    if PriceBasket(rows, init).Err? {
      PriceBasketFirstFailure(rows, init);
      var i :| 0 <= i < |init| && !Available(rows, init[i])
               && (forall j | 0 <= j < i :: Available(rows, init[j]))
               && PriceLine(rows, init[i]) == Err(PriceBasket(rows, init).error);
      assert !Available(rows, basket[i]);
    } else {
      PriceBasketOk(rows, init);
      assert !Available(rows, basket[|basket| - 1]);
    }
  }

  /** A failure in some prefix of the basket is the failure of the whole basket. */
  lemma {:induction false} PriceBasketPrefixFailure(rows: seq<Product>, basket: seq<BasketLine>, k: nat)
    requires k <= |basket|
    requires PriceBasket(rows, basket[..k]).Err?
    ensures PriceBasket(rows, basket) == PriceBasket(rows, basket[..k])
  {
    if k < |basket| {
      var init := basket[..|basket| - 1];
      assert init[..k] == basket[..k];
      PriceBasketPrefixFailure(rows, init, k);
    } else {
      assert basket[..k] == basket;
    }
  }

  /** What the first loop of POST /sales leaves: the `saleItems` array and `totalAmount`. */
  datatype PricedBasket = PricedBasket(lines: seq<PricedLine>, total: int)

  /**
   * The `items.forEach` loop of POST /sales (routes/sales.js:122-171): each
   * line's product is fetched, the first missing product or short stock ends
   * the request, and the others are priced and summed.
   */
  method PriceItems(rows: seq<Product>, basket: seq<BasketLine>) returns (r: Result<PricedBasket, SaleError>)
    ensures r.Ok? <==> PriceBasket(rows, basket).Ok?
    ensures r.Ok? ==> r.value.lines == PriceBasket(rows, basket).value && r.value.total == LinesTotal(r.value.lines)
    ensures r.Err? ==> r.error == PriceBasket(rows, basket).error
  {
    var totalAmount := 0;
    var saleItems: seq<PricedLine> := [];
    var i := 0;
    while i < |basket|
      invariant 0 <= i <= |basket|
      invariant PriceBasket(rows, basket[..i]) == Ok(saleItems)
      invariant totalAmount == LinesTotal(saleItems)
    {
      var item := basket[i];
      assert basket[..i + 1][..i] == basket[..i];
      var product := FindProduct(rows, item.productId);
      if product.None? {
        PriceBasketPrefixFailure(rows, basket, i + 1);
        return Err(ProductNotFound(item.productId));
      }
      var p := product.value;
      if p.stock < item.quantity {
        PriceBasketPrefixFailure(rows, basket, i + 1);
        return Err(InsufficientStock(p.name, p.stock, item.quantity));
      }
      var itemTotal := p.price * item.quantity;
      totalAmount := totalAmount + itemTotal;
      saleItems := saleItems + [PricedLine(p.id, item.quantity, p.price, itemTotal)];
      i := i + 1;
    }
    assert basket[..i] == basket;
    return Ok(PricedBasket(saleItems, totalAmount));
  }

  /** The quantity of `productId` a sequence of priced lines takes out of stock. */
  function SoldQuantity(lines: seq<PricedLine>, productId: int): int {
    if lines == [] then 0
    else SoldQuantity(lines[..|lines| - 1], productId)
         + (if lines[|lines| - 1].productId == productId then lines[|lines| - 1].quantity else 0)
  }

  /** The quantity of `productId` the basket asks for, over all its lines. */
  function Requested(basket: seq<BasketLine>, productId: int): int {
    if basket == [] then 0
    else Requested(basket[..|basket| - 1], productId)
         + (if basket[|basket| - 1].productId == productId then basket[|basket| - 1].quantity else 0)
  }

  lemma {:induction false} SoldIsRequested(rows: seq<Product>, basket: seq<BasketLine>, productId: int)
    requires PriceBasket(rows, basket).Ok?
    ensures SoldQuantity(PriceBasket(rows, basket).value, productId) == Requested(basket, productId)
  {
    if basket != [] {
      var init := basket[..|basket| - 1];
      SoldIsRequested(rows, init, productId);
      var lines := PriceBasket(rows, basket).value;
      assert lines[..|lines| - 1] == PriceBasket(rows, init).value;
    }
  }

  /** `UPDATE products SET stock = stock - ? WHERE id = ?`. */
  function Decrement(rows: seq<Product>, productId: int, quantity: int): (r: seq<Product>)
    ensures |r| == |rows|
    ensures forall i | 0 <= i < |rows| ::
      r[i] == if rows[i].id == productId then rows[i].(stock := rows[i].stock - quantity) else rows[i]
  {
    if rows == [] then []
    else [if rows[0].id == productId then rows[0].(stock := rows[0].stock - quantity) else rows[0]]
         + Decrement(rows[1..], productId, quantity)
  }

  /** The decrements of all lines, applied one after the other as the second loop does. */
  function ApplyLines(rows: seq<Product>, lines: seq<PricedLine>): (r: seq<Product>)
    ensures |r| == |rows|
  {
    if lines == [] then rows
    else
      var last := lines[|lines| - 1];
      Decrement(ApplyLines(rows, lines[..|lines| - 1]), last.productId, last.quantity)
  }

  /** After the decrements every row is the old row, its stock lowered by what the lines took of it. */
  lemma {:induction false} ApplyLinesStock(rows: seq<Product>, lines: seq<PricedLine>)
    ensures |ApplyLines(rows, lines)| == |rows|
    ensures forall i | 0 <= i < |rows| ::
      ApplyLines(rows, lines)[i] == rows[i].(stock := rows[i].stock - SoldQuantity(lines, rows[i].id))
  {
    if lines != [] {
      ApplyLinesStock(rows, lines[..|lines| - 1]);
    }
  }

  /** The ids in the basket are pairwise distinct. */
  predicate DistinctProducts(basket: seq<BasketLine>) {
    forall i, j | 0 <= i < j < |basket| :: basket[i].productId != basket[j].productId
  }

  /** The ids in the table are pairwise distinct (its PRIMARY KEY). */
  predicate UniqueIds(rows: seq<Product>) {
    forall i, j | 0 <= i < j < |rows| :: rows[i].id != rows[j].id
  }

  predicate StocksNonNegative(rows: seq<Product>) {
    forall i | 0 <= i < |rows| :: rows[i].stock >= 0
  }

  /**
   * The corrected stock check: each line is checked against the stock its
   * product has left after the earlier lines of the same basket.
   */
  predicate CumulativelyAvailable(rows: seq<Product>, basket: seq<BasketLine>) {
    forall i | 0 <= i < |basket| ::
      FindProduct(rows, basket[i].productId).Some?
      && Requested(basket[..i + 1], basket[i].productId) <= FindProduct(rows, basket[i].productId).value.stock
  }

  /** Index of the last line naming `productId`, or -1. */
  function LastLineOf(basket: seq<BasketLine>, productId: int): (r: int)
    ensures -1 <= r < |basket|
    ensures r >= 0 ==> basket[r].productId == productId
    ensures forall j | r < j < |basket| :: basket[j].productId != productId
  {
    if basket == [] then -1
    else if basket[|basket| - 1].productId == productId then |basket| - 1
    else LastLineOf(basket[..|basket| - 1], productId)
  }

  /** What the basket asks of a product is what it asks up to the last line naming it. */
  lemma {:induction false} RequestedUpToLastLine(basket: seq<BasketLine>, productId: int)
    ensures var k := LastLineOf(basket, productId);
            Requested(basket, productId) == if k < 0 then 0 else Requested(basket[..k + 1], productId)
  {
    if basket != [] {
      var init := basket[..|basket| - 1];
      RequestedUpToLastLine(init, productId);
      var k := LastLineOf(basket, productId);
      if k == |basket| - 1 {
        assert basket[..k + 1] == basket;
      } else {
        assert init[..k + 1] == basket[..k + 1];
      }
    }
  }

  /**
   * Corrected check: when every line passes the cumulative check, no product
   * ends with negative stock.
   */
  lemma CumulativeCheckKeepsStock(rows: seq<Product>, basket: seq<BasketLine>)
    requires UniqueIds(rows) && StocksNonNegative(rows)
    requires CumulativelyAvailable(rows, basket)
    ensures forall i | 0 <= i < |rows| :: rows[i].stock - Requested(basket, rows[i].id) >= 0
  {
    forall i | 0 <= i < |rows| ensures rows[i].stock - Requested(basket, rows[i].id) >= 0 {
      CumulativeCheckKeepsRow(rows, basket, i);
    }
  }

  lemma CumulativeCheckKeepsRow(rows: seq<Product>, basket: seq<BasketLine>, i: int)
    requires UniqueIds(rows) && StocksNonNegative(rows)
    requires CumulativelyAvailable(rows, basket)
    requires 0 <= i < |rows|
    ensures rows[i].stock - Requested(basket, rows[i].id) >= 0
  {
    var id := rows[i].id;
    RequestedUpToLastLine(basket, id);
    var k := LastLineOf(basket, id);
    if k >= 0 {
      FindProductUnique(rows, i);
      assert basket[k].productId == id;
      assert Requested(basket[..k + 1], basket[k].productId) <= FindProduct(rows, basket[k].productId).value.stock;
    }
  }

  /** With pairwise-distinct ids the check as written is the cumulative check. */
  lemma DistinctBasketChecksCumulatively(rows: seq<Product>, basket: seq<BasketLine>)
    requires DistinctProducts(basket)
    ensures CumulativelyAvailable(rows, basket) <==> forall i | 0 <= i < |basket| :: Available(rows, basket[i])
  {
    forall i | 0 <= i < |basket|
      ensures Requested(basket[..i + 1], basket[i].productId) == basket[i].quantity
    {
      var prefix := basket[..i + 1];
      assert prefix[..i] == basket[..i];
      RequestedAbsent(basket[..i], basket[i].productId);
    }
  }

  lemma {:induction false} RequestedAbsent(basket: seq<BasketLine>, productId: int)
    requires forall j | 0 <= j < |basket| :: basket[j].productId != productId
    ensures Requested(basket, productId) == 0
  {
    if basket != [] {
      RequestedAbsent(basket[..|basket| - 1], productId);
    }
  }

  /**
   * A sale whose lines name pairwise-distinct products, and which the check as
   * written accepts, leaves no product with negative stock.
   */
  lemma DistinctSaleKeepsStock(rows: seq<Product>, basket: seq<BasketLine>)
    requires UniqueIds(rows) && StocksNonNegative(rows)
    requires DistinctProducts(basket)
    requires PriceBasket(rows, basket).Ok?
    ensures StocksNonNegative(ApplyLines(rows, PriceBasket(rows, basket).value))
  {
    var lines := PriceBasket(rows, basket).value;
    PriceBasketOk(rows, basket);
    DistinctBasketChecksCumulatively(rows, basket);
    CumulativeCheckKeepsStock(rows, basket);
    ApplyLinesStock(rows, lines);
    forall i | 0 <= i < |rows| ensures ApplyLines(rows, lines)[i].stock >= 0 {
      SoldIsRequested(rows, basket, rows[i].id);
    }
  }

  /**
   * The check as written oversells: one unit in stock, a basket naming that
   * product twice with quantity 1 is accepted and leaves stock at -1, while
   * the cumulative check rejects it.
   */
  lemma RepeatedProductOversells()
    ensures var rows := [Product(1, "Milk 1L", "3456789012345", "Dairy", 350, 1, 5, None, None, None)];
            var basket := [BasketLine(1, 1), BasketLine(1, 1)];
            PriceBasket(rows, basket).Ok?
            && ApplyLines(rows, PriceBasket(rows, basket).value)[0].stock == -1
            && !CumulativelyAvailable(rows, basket)
  {
    var rows := [Product(1, "Milk 1L", "3456789012345", "Dairy", 350, 1, 5, None, None, None)];
    var basket := [BasketLine(1, 1), BasketLine(1, 1)];
    var line := PricedLine(1, 1, 350, 350);
    assert FindProduct(rows, 1) == Some(rows[0]);
    assert PriceLine(rows, BasketLine(1, 1)) == Ok(line);
    var b1 := basket[..1];
    assert b1[..|b1| - 1] == [];
    assert PriceBasket(rows, b1[..|b1| - 1]) == Ok([]);
    assert PriceLine(rows, b1[|b1| - 1]) == Ok(line);
    assert b1 != [];
    assert [] + [line] == [line];
    assert PriceBasket(rows, b1) == Ok([line]);
    assert basket[..|basket| - 1] == b1;
    assert PriceLine(rows, basket[|basket| - 1]) == Ok(line);
    assert basket != [];
    assert [line] + [line] == [line, line];
    assert PriceBasket(rows, basket) == Ok([line, line]);
    assert [line, line][..1] == [line] && [line][..0] == [];
    ApplyLinesStock(rows, [line, line]);
    assert SoldQuantity([line], 1) == 1;
    assert SoldQuantity([line, line], 1) == 2;
    assert Requested(basket[..2], 1) == 2 by {
      assert basket[..2] == basket;
      assert Requested(basket[..1], 1) == 1;
    }
  }

  /** The `sale_items` rows written for sale `saleId`, ids allocated from `firstId`. */
  function ItemsFor(saleId: int, firstId: int, lines: seq<PricedLine>): (r: seq<SaleItem>)
    ensures |r| == |lines|
    ensures forall i | 0 <= i < |lines| ::
      r[i] == SaleItem(firstId + i, saleId, lines[i].productId, lines[i].quantity, lines[i].unitPrice, lines[i].totalPrice)
  {
    if lines == [] then []
    else
      var last := lines[|lines| - 1];
      ItemsFor(saleId, firstId, lines[..|lines| - 1])
      + [SaleItem(firstId + |lines| - 1, saleId, last.productId, last.quantity, last.unitPrice, last.totalPrice)]
  }

  function ItemsTotal(items: seq<SaleItem>): int {
    if items == [] then 0 else ItemsTotal(items[..|items| - 1]) + items[|items| - 1].totalPrice
  }

  /** The sale's `total` is the sum of the `total_price` of the items written for it. */
  lemma {:induction false} SaleTotalIsItemsTotal(saleId: int, firstId: int, lines: seq<PricedLine>)
    ensures ItemsTotal(ItemsFor(saleId, firstId, lines)) == LinesTotal(lines)
  {
    if lines != [] {
      var items := ItemsFor(saleId, firstId, lines);
      SaleTotalIsItemsTotal(saleId, firstId, lines[..|lines| - 1]);
      assert items[..|items| - 1] == ItemsFor(saleId, firstId, lines[..|lines| - 1]);
    }
  }

  /** The query string of GET /sales. */
  datatype SaleQuery = SaleQuery(
    startDate: Option<string>,
    endDate: Option<string>,
    cashierId: Option<int>,
    paymentMethod: Option<string>)

  /** The WHERE clause GET /sales builds; dates compare as text, as SQLite compares them. */
  predicate SaleMatches(s: Sale, q: SaleQuery) {
    (Given(q.startDate) ==> LexLe(q.startDate.value, s.date))
    && (Given(q.endDate) ==> LexLe(s.date, q.endDate.value))
    && (q.cashierId.Some? ==> s.cashierId == q.cashierId.value)
    && (Given(q.paymentMethod) ==> MethodName(s.paymentMethod) == q.paymentMethod.value)
  }

  /** GET /sales: the matching sales, newest (last inserted) first. */
  function ListSales(sales: seq<Sale>, q: SaleQuery): (r: seq<Sale>)
    ensures |r| <= |sales|
  {
    if sales == [] then []
    else ListSales(sales[1..], q) + (if SaleMatches(sales[0], q) then [sales[0]] else [])
  }

  /** The listing holds each matching sale as often as the table does, and nothing else. */
  lemma {:induction false} ListSalesSelects(sales: seq<Sale>, q: SaleQuery)
    ensures forall s :: multiset(ListSales(sales, q))[s] == if SaleMatches(s, q) then multiset(sales)[s] else 0
  {
    if sales != [] {
      ListSalesSelects(sales[1..], q);
      assert sales == [sales[0]] + sales[1..];
    }
  }

  /** A sale with a smaller id than every stored sale has a smaller id than every listed one. */
  lemma {:induction false} ListSalesKeepsBound(sales: seq<Sale>, q: SaleQuery, x: Sale)
    requires forall i | 0 <= i < |sales| :: x.id < sales[i].id
    ensures forall k | 0 <= k < |ListSales(sales, q)| :: x.id < ListSales(sales, q)[k].id
  {
    if sales != [] {
      ListSalesKeepsBound(sales[1..], q, x);
      var rest := ListSales(sales[1..], q);
      var r := ListSales(sales, q);
      assert r == rest + (if SaleMatches(sales[0], q) then [sales[0]] else []);
      forall k | 0 <= k < |r| ensures x.id < r[k].id {
        if k < |rest| {
          assert r[k] == rest[k];
        }
      }
    }
  }

  /** Listed sales come in decreasing id order when the table's ids increase. */
  lemma {:induction false} ListSalesNewestFirst(sales: seq<Sale>, q: SaleQuery)
    requires forall i, j | 0 <= i < j < |sales| :: sales[i].id < sales[j].id
    ensures forall i, j | 0 <= i < j < |ListSales(sales, q)| :: ListSales(sales, q)[i].id > ListSales(sales, q)[j].id
  {
    if sales != [] {
      var tail := sales[1..];
      assert forall i, j | 0 <= i < j < |tail| :: tail[i].id < tail[j].id by {
        forall i, j | 0 <= i < j < |tail| ensures tail[i].id < tail[j].id {
          assert tail[i] == sales[i + 1] && tail[j] == sales[j + 1];
        }
      }
      ListSalesNewestFirst(tail, q);
      forall i | 0 <= i < |tail| ensures sales[0].id < tail[i].id {
        assert tail[i] == sales[i + 1];
      }
      ListSalesKeepsBound(tail, q, sales[0]);
      var rest := ListSales(tail, q);
      var r := ListSales(sales, q);
      assert r == rest + (if SaleMatches(sales[0], q) then [sales[0]] else []);
      forall i, j | 0 <= i < j < |r| ensures r[i].id > r[j].id {
        assert r[i] == rest[i];
        if j < |rest| {
          assert r[j] == rest[j];
        }
      }
    }
  }

  lemma ListedSaleIsStored(sales: seq<Sale>, q: SaleQuery, s: Sale)
    requires s in ListSales(sales, q)
    ensures s in sales && SaleMatches(s, q)
  {
    ListSalesSelects(sales, q);
    assert multiset(ListSales(sales, q))[s] > 0;
  }

  function FindSale(sales: seq<Sale>, id: int): (r: Option<Sale>)
    ensures r.Some? ==> r.value in sales && r.value.id == id
    ensures r.None? <==> forall i | 0 <= i < |sales| :: sales[i].id != id
  {
    if sales == [] then None
    else if sales[0].id == id then Some(sales[0])
    else FindSale(sales[1..], id)
  }

  /** An item of GET /sales/:id joined with its product's name and barcode. */
  datatype ItemDetail = ItemDetail(item: SaleItem, productName: string, barcode: string)

  /**
   * A row of the inner JOIN for sale `id`: an item of that sale whose product
   * still exists, carrying that product's current name and barcode.
   */
  predicate JoinedDetail(items: seq<SaleItem>, rows: seq<Product>, id: int, d: ItemDetail) {
    d.item in items && JoinsRow(rows, id, d)
  }

  /** `d` pairs an item of sale `id` with its product's current name and barcode. */
  predicate JoinsRow(rows: seq<Product>, id: int, d: ItemDetail) {
    d.item.saleId == id && FindProduct(rows, d.item.productId).Some?
    && d.productName == FindProduct(rows, d.item.productId).value.name
    && d.barcode == FindProduct(rows, d.item.productId).value.barcode
  }

  /** The items of sale `id` whose product still exists (the inner JOIN drops the others). */
  function ItemDetails(items: seq<SaleItem>, rows: seq<Product>, id: int): (r: seq<ItemDetail>)
    ensures |r| <= |items|
    ensures forall d :: d in r <==> JoinedDetail(items, rows, id, d)
  {
    if items == [] then []
    else
      var it := items[0];
      var here := match FindProduct(rows, it.productId)
                  case Some(p) => if it.saleId == id then [ItemDetail(it, p.name, p.barcode)] else []
                  case None => [];
      here + ItemDetails(items[1..], rows, id)
  }

  /** The JOIN yields each joined detail exactly as often as its item is stored, and nothing else. */
  lemma {:induction false} ItemDetailsCounts(items: seq<SaleItem>, rows: seq<Product>, id: int)
    ensures forall d :: multiset(ItemDetails(items, rows, id))[d]
                        == if JoinsRow(rows, id, d) then multiset(items)[d.item] else 0
  {
    if items != [] {
      var tail := items[1..];
      ItemDetailsCounts(tail, rows, id);
      assert items == [items[0]] + tail;
      assert multiset(items) == multiset{items[0]} + multiset(tail);
    }
  }

  /** GET /sales/:id: the sale and its items, or not found. */
  function GetSale(sales: seq<Sale>, items: seq<SaleItem>, rows: seq<Product>, id: int): (r: Option<(Sale, seq<ItemDetail>)>)
    ensures r.None? <==> forall i | 0 <= i < |sales| :: sales[i].id != id
    ensures r.Some? ==> r.value.0 in sales && r.value.0.id == id
                        && r.value.1 == ItemDetails(items, rows, id)
                        && forall d :: d in r.value.1 <==> JoinedDetail(items, rows, id, d)
  {
    match FindSale(sales, id)
    case None => None
    case Some(s) => Some((s, ItemDetails(items, rows, id)))
  }
}

=== FILE: schema.dfy ===
/**
 * The rows of the SQLite tables the routes read and write (database/init.js).
 * Money columns, declared DECIMAL(10,2), hold integer cents; ids are the
 * INTEGER PRIMARY KEY AUTOINCREMENT values; dates are ISO `YYYY-MM-DD` text.
 */
module Schema {
  import opened Wrappers

  /** The five values the `payment_method` CHECK constraint admits. */
  datatype PaymentMethod = Cash | Card | Debt | Momo | AirtelMoney

  /** The text stored in `sales.payment_method` and sent by clients. */
  function MethodName(m: PaymentMethod): string {
    match m
    case Cash => "cash"
    case Card => "card"
    case Debt => "debt"
    case Momo => "momo"
    case AirtelMoney => "airtel_money"
  }

  /** The `isIn([...])` check on `payment_method`: one of the five names, exactly. */
  function ParseMethod(s: string): (r: Option<PaymentMethod>)
    ensures r.Some? ==> MethodName(r.value) == s
  {
    if s == "cash" then Some(Cash)
    else if s == "card" then Some(Card)
    else if s == "debt" then Some(Debt)
    else if s == "momo" then Some(Momo)
    else if s == "airtel_money" then Some(AirtelMoney)
    else None
  }

  /** Every method's name parses back to that method, so the names are distinct. */
  lemma ParseMethodName(m: PaymentMethod)
    ensures ParseMethod(MethodName(m)) == Some(m)
  {
    match m
    case Cash =>
    case Card =>
    case Debt =>
    case Momo =>
    case AirtelMoney =>
      assert MethodName(m)[0] == 'a';
  }

  /** A row of `products`. `stock` is an int: nothing in the schema forbids a negative value. */
  datatype Product = Product(
    id: int,
    name: string,
    barcode: string,
    category: string,
    price: int,
    stock: int,
    minStock: int,
    expiryDate: Option<string>,
    supplier: Option<string>,
    description: Option<string>)

  /** A row of `sales`; `date` is the calendar day of `created_at`. */
  datatype Sale = Sale(
    id: int,
    receiptNumber: string,
    cashierId: int,
    total: int,
    paymentMethod: PaymentMethod,
    customerName: Option<string>,
    customerPhone: Option<string>,
    notes: Option<string>,
    date: string)

  /** A row of `sale_items`. */
  datatype SaleItem = SaleItem(
    id: int,
    saleId: int,
    productId: int,
    quantity: int,
    unitPrice: int,
    totalPrice: int)

  /** The money and count columns of a `daily_sales_summary` row. */
  datatype DailySummary = DailySummary(
    totalSales: int,
    cashSales: int,
    cardSales: int,
    debtSales: int,
    momoSales: int,
    airtelMoneySales: int,
    totalTransactions: int)

  /** A row as every column's DEFAULT 0 leaves it. */
  const ZeroSummary := DailySummary(0, 0, 0, 0, 0, 0, 0)

  /** The `<method>_sales` column of a summary row. */
  function Column(s: DailySummary, m: PaymentMethod): int {
    match m
    case Cash => s.cashSales
    case Card => s.cardSales
    case Debt => s.debtSales
    case Momo => s.momoSales
    case AirtelMoney => s.airtelMoneySales
  }

  /** `s` with its `<method>_sales` column set to `v`. */
  function WithColumn(s: DailySummary, m: PaymentMethod, v: int): (r: DailySummary)
    ensures Column(r, m) == v
    ensures forall n :: n != m ==> Column(r, n) == Column(s, n)
    ensures r.totalSales == s.totalSales && r.totalTransactions == s.totalTransactions
  {
    match m
    case Cash => s.(cashSales := v)
    case Card => s.(cardSales := v)
    case Debt => s.(debtSales := v)
    case Momo => s.(momoSales := v)
    case AirtelMoney => s.(airtelMoneySales := v)
  }

  /**
   * The `action` values the routes write to `audit_logs`: `CREATE_SALE`,
   * `CREATE_PRODUCT`, `UPDATE_PRODUCT` and `DELETE_PRODUCT`.
   */
  datatype AuditAction = CreateSaleAction | CreateProductAction | UpdateProductAction | DeleteProductAction

  /** A row of `audit_logs` as the routes fill it (the other columns stay NULL). */
  datatype AuditEntry = AuditEntry(userId: int, action: AuditAction, tableName: string, recordId: int)
}

=== FILE: store.dfy ===
/**
 * The SQLite database as the routes change it: the products, sales,
 * sale_items, daily_sales_summary and audit_logs tables held by one object.
 * Each route is a transition from the old tables to the new ones and its
 * answer; a route that fails leaves every table as it was (its ROLLBACK, or
 * a statement that changed nothing), and a route that succeeds makes all of
 * its changes and appends its audit entry.
 */
module Store {
  import opened Wrappers
  import opened Text
  import opened Schema
  import opened Catalog
  import opened Summaries
  import opened Checkout

  /** The contents of every table, with the next AUTOINCREMENT value of each keyed table. */
  datatype Tables = Tables(
    products: seq<Product>,
    nextProductId: int,
    sales: seq<Sale>,
    nextSaleId: int,
    saleItems: seq<SaleItem>,
    nextItemId: int,
    summaries: SummaryTable,
    auditLog: seq<AuditEntry>)

  predicate IncreasingProductIds(rows: seq<Product>) {
    forall i, j | 0 <= i < j < |rows| :: rows[i].id < rows[j].id
  }

  predicate UniqueBarcodes(rows: seq<Product>) {
    forall i, j | 0 <= i < j < |rows| :: rows[i].barcode != rows[j].barcode
  }

  /** `products`: AUTOINCREMENT ids, increasing and below the next one; UNIQUE barcodes. */
  predicate ProductsValid(rows: seq<Product>, nextId: int) {
    nextId >= 1 && IncreasingProductIds(rows) && UniqueBarcodes(rows)
    && forall i | 0 <= i < |rows| :: 1 <= rows[i].id < nextId
  }

  /** `sales`: AUTOINCREMENT ids, increasing and below the next one; UNIQUE receipt numbers. */
  predicate SalesValid(sales: seq<Sale>, nextId: int) {
    nextId >= 1
    && (forall i, j | 0 <= i < j < |sales| :: sales[i].id < sales[j].id)
    && (forall i | 0 <= i < |sales| :: 1 <= sales[i].id < nextId)
    && (forall i, j | 0 <= i < j < |sales| :: sales[i].receiptNumber != sales[j].receiptNumber)
  }

  /** `sale_items`: AUTOINCREMENT ids, increasing and below the next one. */
  predicate ItemsValid(items: seq<SaleItem>, nextId: int) {
    nextId >= 1
    && (forall i, j | 0 <= i < j < |items| :: items[i].id < items[j].id)
    && (forall i | 0 <= i < |items| :: 1 <= items[i].id < nextId)
  }

  /** The table constraints of the schema. */
  predicate TablesValid(t: Tables) {
    ProductsValid(t.products, t.nextProductId) && SalesValid(t.sales, t.nextSaleId)
    && ItemsValid(t.saleItems, t.nextItemId)
  }

  predicate ReceiptTaken(sales: seq<Sale>, receiptNumber: string) {
    exists i | 0 <= i < |sales| :: sales[i].receiptNumber == receiptNumber
  }

  /** What `body(field).optional().trim()` leaves: an absent field stays absent. */
  function TrimOptional(field: Option<string>): Option<string> {
    match field
    case None => None
    case Some(s) => Some(Trim(s))
  }

  // ---------------------------------------------------------------------------
  // The catalog routes (routes/products.js)

  /** POST /products: validate, insert unless the barcode is taken, then audit. */
  function CreateProductStep(t: Tables, actor: int, input: ProductInput): (Tables, Result<int, ProductError>) {
    var errors := FieldErrors(input, true);
    if errors != [] then (t, Err(InvalidFields(errors)))
    else
      var row := NewRow(t.nextProductId, input);
      if BarcodeTaken(t.products, row.barcode) then (t, Err(DuplicateBarcode))
      else
        (t.(products := t.products + [row], nextProductId := t.nextProductId + 1,
            auditLog := t.auditLog + [AuditEntry(actor, CreateProductAction, "products", t.nextProductId)]),
         Ok(t.nextProductId))
  }

  /** PUT /products/:id: validate, update the row unless no row has the id, then audit. */
  function UpdateProductStep(t: Tables, actor: int, id: int, input: ProductInput): (Tables, Result<int, ProductError>) {
    var errors := FieldErrors(input, false);
    if errors != [] then (t, Err(InvalidFields(errors)))
    else if FindProduct(t.products, id).None? then (t, Err(NotFound))
    else
      (t.(products := ApplyUpdate(t.products, id, input),
          auditLog := t.auditLog + [AuditEntry(actor, UpdateProductAction, "products", id)]),
       Ok(id))
  }

  /** DELETE /products/:id: delete the row unless no row has the id, then audit. */
  function DeleteProductStep(t: Tables, actor: int, id: int): (Tables, Result<int, ProductError>) {
    if FindProduct(t.products, id).None? then (t, Err(NotFound))
    else
      (t.(products := RemoveRow(t.products, id),
          auditLog := t.auditLog + [AuditEntry(actor, DeleteProductAction, "products", id)]),
       Ok(id))
  }

  /**
   * A create that fails (invalid field, barcode taken) changes nothing; one
   * that succeeds adds exactly one row, with an id no row had, and one
   * CREATE_PRODUCT audit entry carrying that id.
   */
  lemma CreateProductOutcome(t: Tables, actor: int, input: ProductInput)
    requires TablesValid(t)
    ensures var (t', r) := CreateProductStep(t, actor, input);
      && (!WellFormed(input, true) ==> r == Err(InvalidFields(FieldErrors(input, true))))
      && (WellFormed(input, true) && BarcodeTaken(t.products, Trim(input.barcode)) ==> r == Err(DuplicateBarcode))
      && (r.Ok? <==> WellFormed(input, true) && !BarcodeTaken(t.products, Trim(input.barcode)))
      && (r.Err? ==> t' == t)
      && (r.Ok? ==>
            r.value == t.nextProductId
            && FindProduct(t.products, r.value).None?
            && t'.products == t.products + [NewRow(r.value, input)]
            && t'.auditLog == t.auditLog + [AuditEntry(actor, CreateProductAction, "products", r.value)]
            && t'.sales == t.sales && t'.saleItems == t.saleItems && t'.summaries == t.summaries)
  {
  }

  /**
   * An update changes nothing when the body is invalid or no row has the id;
   * otherwise it rewrites that row's editable fields, keeps every id and
   * barcode, leaves the other rows alone and appends one UPDATE_PRODUCT entry.
   */
  lemma UpdateProductOutcome(t: Tables, actor: int, id: int, input: ProductInput)
    ensures var (t', r) := UpdateProductStep(t, actor, id, input);
      && (!WellFormed(input, false) ==> r == Err(InvalidFields(FieldErrors(input, false))))
      && (WellFormed(input, false) && (forall i | 0 <= i < |t.products| :: t.products[i].id != id) ==> r == Err(NotFound))
      && (r.Ok? <==> WellFormed(input, false) && exists i | 0 <= i < |t.products| :: t.products[i].id == id)
      && (r.Ok? ==> r.value == id)
      && (r.Err? ==> t' == t)
      && |t'.products| == |t.products|
      && (forall i | 0 <= i < |t.products| ::
            t'.products[i].id == t.products[i].id && t'.products[i].barcode == t.products[i].barcode
            && (t.products[i].id != id ==> t'.products[i] == t.products[i])
            && (r.Ok? && t.products[i].id == id ==>
                  t'.products[i].name == Trim(input.name) && t'.products[i].category == Trim(input.category)
                  && t'.products[i].price == input.price && t'.products[i].stock == input.stock
                  && t'.products[i].minStock == input.minStock && t'.products[i].expiryDate == input.expiryDate
                  && t'.products[i].supplier == input.supplier && t'.products[i].description == input.description))
      && (r.Ok? ==> t'.auditLog == t.auditLog + [AuditEntry(actor, UpdateProductAction, "products", id)]
                    && t'.sales == t.sales && t'.saleItems == t.saleItems && t'.summaries == t.summaries)
  {
  }

  /**
   * A delete of a missing id changes nothing; otherwise exactly the row with
   * that id goes, and one DELETE_PRODUCT entry is appended.
   */
  lemma DeleteProductOutcome(t: Tables, actor: int, id: int)
    ensures var (t', r) := DeleteProductStep(t, actor, id);
      && (r.Err? <==> forall i | 0 <= i < |t.products| :: t.products[i].id != id)
      && (r.Err? ==> r.error == NotFound && t' == t)
      && (forall p :: p in t'.products <==> p in t.products && p.id != id)
      && (r.Ok? ==> t'.auditLog == t.auditLog + [AuditEntry(actor, DeleteProductAction, "products", id)]
                    && t'.sales == t.sales && t'.saleItems == t.saleItems && t'.summaries == t.summaries)
  {
    RemoveRowMembers(t.products, id);
  }

  /** A create keeps the table constraints, UNIQUE barcodes among them. */
  lemma CreateProductKeepsValid(t: Tables, actor: int, input: ProductInput)
    requires TablesValid(t)
    ensures TablesValid(CreateProductStep(t, actor, input).0)
  {
    if FieldErrors(input, true) == [] {
      var row := NewRow(t.nextProductId, input);
      if !BarcodeTaken(t.products, row.barcode) {
        AppendProductValid(t.products, t.nextProductId, row);
      }
    }
  }

  /** An update keeps the table constraints, since ids and barcodes stay. */
  lemma UpdateProductKeepsValid(t: Tables, actor: int, id: int, input: ProductInput)
    requires TablesValid(t)
    ensures TablesValid(UpdateProductStep(t, actor, id, input).0)
  {
    SameKeysValid(t.products, ApplyUpdate(t.products, id, input), t.nextProductId);
  }

  /** A delete keeps the table constraints. */
  lemma DeleteProductKeepsValid(t: Tables, actor: int, id: int)
    requires TablesValid(t)
    ensures TablesValid(DeleteProductStep(t, actor, id).0)
  {
    RemoveRowValid(t.products, id, t.nextProductId);
  }

  /** A create never makes a stock negative: validation rejects a negative stock. */
  lemma CreateProductKeepsStock(t: Tables, actor: int, input: ProductInput)
    requires StocksNonNegative(t.products)
    ensures StocksNonNegative(CreateProductStep(t, actor, input).0.products)
  {
  }

  /** An update never makes a stock negative: validation rejects a negative stock. */
  lemma UpdateProductKeepsStock(t: Tables, actor: int, id: int, input: ProductInput)
    requires StocksNonNegative(t.products)
    ensures StocksNonNegative(UpdateProductStep(t, actor, id, input).0.products)
  {
  }

  /** A delete never makes a stock negative: it only drops rows. */
  lemma DeleteProductKeepsStock(t: Tables, actor: int, id: int)
    requires StocksNonNegative(t.products)
    ensures StocksNonNegative(DeleteProductStep(t, actor, id).0.products)
  {
    RemoveRowMembers(t.products, id);
    var r := RemoveRow(t.products, id);
    forall k | 0 <= k < |r| ensures r[k].stock >= 0 {
      assert r[k] in r;
    }
  }

  lemma AppendProductValid(rows: seq<Product>, nextId: int, row: Product)
    requires ProductsValid(rows, nextId)
    requires row.id == nextId && !BarcodeTaken(rows, row.barcode)
    ensures ProductsValid(rows + [row], nextId + 1)
  {
    var r := rows + [row];
    forall i, j | 0 <= i < j < |r| ensures r[i].id < r[j].id && r[i].barcode != r[j].barcode {
      assert r[i] == rows[i];
      if j < |rows| {
        assert r[j] == rows[j];
      }
    }
  }

  /** Rows with the same ids and barcodes, index by index, satisfy the same constraints. */
  lemma SameKeysValid(rows: seq<Product>, rows': seq<Product>, nextId: int)
    requires ProductsValid(rows, nextId)
    requires |rows'| == |rows|
    requires forall i | 0 <= i < |rows| :: rows'[i].id == rows[i].id && rows'[i].barcode == rows[i].barcode
    ensures ProductsValid(rows', nextId)
  {
  }

  /** Every row left by a delete was a row of the table, and none carries the deleted id. */
  lemma RemoveRowMembers(rows: seq<Product>, id: int)
    ensures forall p :: p in RemoveRow(rows, id) <==> p in rows && p.id != id
  {
    var r := RemoveRow(rows, id);
    RemoveRowRemovesExactly(rows, id);
    forall p ensures p in r <==> p in rows && p.id != id {
      assert p in r <==> multiset(r)[p] > 0;
      assert p in rows <==> multiset(rows)[p] > 0;
    }
  }

  /** A row that precedes every row of the table, by id, with another barcode, precedes every row left by a delete. */
  lemma {:induction false} RemoveRowKeepsBound(rows: seq<Product>, id: int, x: Product)
    requires forall i | 0 <= i < |rows| :: x.id < rows[i].id && x.barcode != rows[i].barcode
    ensures forall k | 0 <= k < |RemoveRow(rows, id)| ::
      x.id < RemoveRow(rows, id)[k].id && x.barcode != RemoveRow(rows, id)[k].barcode
  {
    if rows != [] {
      RemoveRowKeepsBound(rows[1..], id, x);
      var rest := RemoveRow(rows[1..], id);
      var r := RemoveRow(rows, id);
      assert r == (if rows[0].id == id then [] else [rows[0]]) + rest;
      if rows[0].id != id {
        assert r == [rows[0]] + rest;
        forall k | 0 <= k < |r| ensures x.id < r[k].id && x.barcode != r[k].barcode {
          if k > 0 {
            assert r[k] == rest[k - 1];
          }
        }
      } else {
        assert r == rest;
      }
    }
  }

  /** Deleting keeps the other rows in their order, so ids still increase and barcodes stay unique. */
  lemma {:induction false} RemoveRowKeepsOrder(rows: seq<Product>, id: int)
    requires IncreasingProductIds(rows) && UniqueBarcodes(rows)
    ensures IncreasingProductIds(RemoveRow(rows, id)) && UniqueBarcodes(RemoveRow(rows, id))
  {
    if rows != [] {
      var tail := rows[1..];
      assert IncreasingProductIds(tail) && UniqueBarcodes(tail) by {
        forall i, j | 0 <= i < j < |tail| ensures tail[i].id < tail[j].id && tail[i].barcode != tail[j].barcode {
          assert tail[i] == rows[i + 1] && tail[j] == rows[j + 1];
        }
      }
      RemoveRowKeepsOrder(tail, id);
      forall i | 0 <= i < |tail| ensures rows[0].id < tail[i].id && rows[0].barcode != tail[i].barcode {
        assert tail[i] == rows[i + 1];
      }
      RemoveRowKeepsBound(tail, id, rows[0]);
      var rest := RemoveRow(tail, id);
      var r := RemoveRow(rows, id);
      assert r == (if rows[0].id == id then [] else [rows[0]]) + rest;
      if rows[0].id != id {
        assert r == [rows[0]] + rest;
        forall i, j | 0 <= i < j < |r| ensures r[i].id < r[j].id && r[i].barcode != r[j].barcode {
          assert r[j] == rest[j - 1];
          if i > 0 {
            assert r[i] == rest[i - 1];
          }
        }
      } else {
        assert r == rest;
      }
    }
  }

  lemma RemoveRowValid(rows: seq<Product>, id: int, nextId: int)
    requires ProductsValid(rows, nextId)
    ensures ProductsValid(RemoveRow(rows, id), nextId)
  {
    RemoveRowKeepsOrder(rows, id);
    RemoveRowMembers(rows, id);
    var r := RemoveRow(rows, id);
    forall k | 0 <= k < |r| ensures r[k] in rows {
      assert r[k] in r;
    }
  }

  // ---------------------------------------------------------------------------
  // Sale creation (routes/sales.js, POST /)

  /** `req.user.id` and the JSON body of POST /sales. */
  datatype SaleRequest = SaleRequest(
    cashierId: int,
    basket: seq<BasketLine>,
    paymentMethod: string,
    customerName: Option<string>,
    customerPhone: Option<string>,
    notes: Option<string>)

  /** The `data` of a 201 answer to POST /sales. */
  datatype SaleReceipt = SaleReceipt(id: int, receiptNumber: string, total: int)

  /** The row `INSERT INTO sales` writes. */
  function SaleRow(id: int, receiptNumber: string, req: SaleRequest, total: int, m: PaymentMethod, today: string): Sale {
    Sale(id, receiptNumber, req.cashierId, total, m, TrimOptional(req.customerName),
         TrimOptional(req.customerPhone), req.notes, today)
  }

  /**
   * POST /sales as one transaction: validation, the per-line checks against
   * the stock as it was before the sale, the sale row (which fails on a
   * receipt number already used), its items and stock decrements, the
   * summary upsert, COMMIT, and the audit entry.
   */
  function CreateSaleStep(t: Tables, req: SaleRequest, receiptNumber: string, today: string)
    : (Tables, Result<SaleReceipt, SaleError>)
  {
    var errors := RequestErrors(req.basket, req.paymentMethod);
    if errors != [] then (t, Err(InvalidRequest(errors)))
    else
      match PriceBasket(t.products, req.basket)
      case Err(e) => (t, Err(e))
      case Ok(lines) =>
        if ReceiptTaken(t.sales, receiptNumber) then (t, Err(SaleInsertFailed))
        else
          var m := ParseMethod(req.paymentMethod).value;
          (SaleWritten(t, req, lines, m, receiptNumber, today),
           Ok(SaleReceipt(t.nextSaleId, receiptNumber, LinesTotal(lines))))
  }

  /**
   * The writes of a sale whose checks passed: the sale row, its items and
   * stock decrements, the summary upsert and the audit entry.
   */
  function SaleWritten(t: Tables, req: SaleRequest, lines: seq<PricedLine>, m: PaymentMethod,
                       receiptNumber: string, today: string): Tables
  {
    var id := t.nextSaleId;
    var total := LinesTotal(lines);
    Tables(ApplyLines(t.products, lines), t.nextProductId,
           t.sales + [SaleRow(id, receiptNumber, req, total, m, today)], id + 1,
           t.saleItems + ItemsFor(id, t.nextItemId, lines), t.nextItemId + |lines|,
           UpsertAsWritten(t.summaries, today, total, m),
           t.auditLog + [AuditEntry(req.cashierId, CreateSaleAction, "sales", id)])
  }

  /**
   * A sale fails exactly when the request is invalid, some line names a
   * missing product or more than its stock, or the receipt number is taken;
   * the answer is the first of these in that order, and a failure leaves
   * every table as it was.
   */
  lemma SaleFailureOutcome(t: Tables, req: SaleRequest, receiptNumber: string, today: string)
    ensures var (t', r) := CreateSaleStep(t, req, receiptNumber, today);
      && (r.Err? <==>
            !ValidRequest(req.basket, req.paymentMethod)
            || (exists i | 0 <= i < |req.basket| :: !Available(t.products, req.basket[i]))
            || ReceiptTaken(t.sales, receiptNumber))
      && (!ValidRequest(req.basket, req.paymentMethod) ==>
            r == Err(InvalidRequest(RequestErrors(req.basket, req.paymentMethod))))
      && (ValidRequest(req.basket, req.paymentMethod) && PriceBasket(t.products, req.basket).Err? ==>
            r == Err(PriceBasket(t.products, req.basket).error))
      && ((ValidRequest(req.basket, req.paymentMethod) && PriceBasket(t.products, req.basket).Ok?
           && ReceiptTaken(t.sales, receiptNumber)) ==> r == Err(SaleInsertFailed))
      && (r.Err? ==> t' == t)
  {
    PriceBasketOk(t.products, req.basket);
  }

  /**
   * A successful sale adds one sale row with the next id, the receipt number
   * and the items' total, appends its line items after the existing ones,
   * and appends one CREATE_SALE audit entry naming the sale.
   */
  lemma SaleAppendsRows(t: Tables, req: SaleRequest, receiptNumber: string, today: string)
    requires CreateSaleStep(t, req, receiptNumber, today).1.Ok?
    ensures var (t', r) := CreateSaleStep(t, req, receiptNumber, today);
      && r.value.id == t.nextSaleId && r.value.receiptNumber == receiptNumber
      && t'.sales == t.sales + [SaleRow(r.value.id, receiptNumber, req, r.value.total,
                                        ParseMethod(req.paymentMethod).value, today)]
      && |t'.saleItems| == |t.saleItems| + |req.basket| && t'.saleItems[..|t.saleItems|] == t.saleItems
      && t'.auditLog == t.auditLog + [AuditEntry(req.cashierId, CreateSaleAction, "sales", r.value.id)]
  {
    PriceBasketOk(t.products, req.basket);
  }

  /**
   * The line items of a successful sale follow the basket: each carries the
   * sale's id, the product and quantity of its line, the product's price at
   * sale time as unit price and unit price × quantity as total, and the
   * sale's total is the sum of the items' totals.
   */
  lemma SaleItemsOutcome(t: Tables, req: SaleRequest, receiptNumber: string, today: string)
    requires CreateSaleStep(t, req, receiptNumber, today).1.Ok?
    ensures |CreateSaleStep(t, req, receiptNumber, today).0.saleItems| == |t.saleItems| + |req.basket|
    ensures forall i | 0 <= i < |req.basket| ::
      SaleItemMatches(CreateSaleStep(t, req, receiptNumber, today).0.saleItems[|t.saleItems| + i],
                      t.nextSaleId, t.products, req.basket[i])
    ensures CreateSaleStep(t, req, receiptNumber, today).1.value.total
         == ItemsTotal(CreateSaleStep(t, req, receiptNumber, today).0.saleItems[|t.saleItems|..])
  {
    var lines := PriceBasket(t.products, req.basket).value;
    PriceBasketOk(t.products, req.basket);
    var items := CreateSaleStep(t, req, receiptNumber, today).0.saleItems;
    var added := ItemsFor(t.nextSaleId, t.nextItemId, lines);
    assert items == t.saleItems + added;
    assert items[|t.saleItems|..] == added;
    forall i | 0 <= i < |req.basket| ensures SaleItemMatches(items[|t.saleItems| + i], t.nextSaleId, t.products, req.basket[i]) {
      assert items[|t.saleItems| + i] == added[i];
    }
    SaleTotalIsItemsTotal(t.nextSaleId, t.nextItemId, lines);
  }

  /** A `sale_items` row records the basket line at the product's current price. */
  predicate SaleItemMatches(item: SaleItem, saleId: int, rows: seq<Product>, line: BasketLine) {
    && FindProduct(rows, line.productId).Some?
    && item.saleId == saleId && item.productId == line.productId && item.quantity == line.quantity
    && item.unitPrice == FindProduct(rows, line.productId).value.price
    && item.totalPrice == item.unitPrice * item.quantity
  }

  /**
   * A successful sale lowers each product's stock by exactly the quantity
   * the basket asks of it, so products outside the basket keep theirs, and
   * changes nothing else in the products table.
   */
  lemma SaleStockOutcome(t: Tables, req: SaleRequest, receiptNumber: string, today: string)
    requires CreateSaleStep(t, req, receiptNumber, today).1.Ok?
    ensures |CreateSaleStep(t, req, receiptNumber, today).0.products| == |t.products|
    ensures forall i | 0 <= i < |t.products| ::
      CreateSaleStep(t, req, receiptNumber, today).0.products[i]
      == t.products[i].(stock := t.products[i].stock - Requested(req.basket, t.products[i].id))
  {
    var lines := PriceBasket(t.products, req.basket).value;
    var after := CreateSaleStep(t, req, receiptNumber, today).0.products;
    assert after == ApplyLines(t.products, lines);
    ApplyLinesStock(t.products, lines);
    forall i | 0 <= i < |t.products|
      ensures after[i] == t.products[i].(stock := t.products[i].stock - Requested(req.basket, t.products[i].id))
    {
      SoldIsRequested(t.products, req.basket, t.products[i].id);
    }
  }

  /** With pairwise-distinct products in the basket, a successful sale leaves no stock negative. */
  lemma DistinctSaleOutcome(t: Tables, req: SaleRequest, receiptNumber: string, today: string)
    requires TablesValid(t) && StocksNonNegative(t.products)
    requires DistinctProducts(req.basket)
    requires CreateSaleStep(t, req, receiptNumber, today).1.Ok?
    ensures StocksNonNegative(CreateSaleStep(t, req, receiptNumber, today).0.products)
  {
    var lines := PriceBasket(t.products, req.basket).value;
    assert CreateSaleStep(t, req, receiptNumber, today).0.products == ApplyLines(t.products, lines);
    DistinctSaleKeepsStock(t.products, req.basket);
  }

  /**
   * A successful sale moves today's summary row by its total and one
   * transaction, clears the other payment methods' columns (the row is
   * replaced), and leaves the other dates' rows alone.
   */
  lemma SaleSummaryOutcome(t: Tables, req: SaleRequest, receiptNumber: string, today: string)
    requires CreateSaleStep(t, req, receiptNumber, today).1.Ok?
    ensures var (t', r) := CreateSaleStep(t, req, receiptNumber, today);
      var m := ParseMethod(req.paymentMethod).value;
      var before := Stored(t.summaries, today);
      var after := Stored(t'.summaries, today);
      && after.totalSales == before.totalSales + r.value.total
      && after.totalTransactions == before.totalTransactions + 1
      && Column(after, m) == Column(before, m) + r.value.total
      && (forall n :: n != m ==> Column(after, n) == 0)
      && (forall d | d != today :: Stored(t'.summaries, d) == Stored(t.summaries, d))
  {
  }

  /** Sale creation keeps the table constraints. */
  lemma CreateSaleStepValid(t: Tables, req: SaleRequest, receiptNumber: string, today: string)
    requires TablesValid(t)
    ensures TablesValid(CreateSaleStep(t, req, receiptNumber, today).0)
  {
    if CreateSaleStep(t, req, receiptNumber, today).1.Ok? {
      var lines := PriceBasket(t.products, req.basket).value;
      var t' := CreateSaleStep(t, req, receiptNumber, today).0;
      ApplyLinesStock(t.products, lines);
      SameKeysValid(t.products, t'.products, t.nextProductId);
      var m := ParseMethod(req.paymentMethod).value;
      AppendSaleValid(t.sales, t.nextSaleId, SaleRow(t.nextSaleId, receiptNumber, req, LinesTotal(lines), m, today));
      AppendItemsValid(t.saleItems, t.nextItemId, t.nextSaleId, lines);
    }
  }

  lemma AppendSaleValid(sales: seq<Sale>, nextId: int, sale: Sale)
    requires SalesValid(sales, nextId)
    requires sale.id == nextId && !ReceiptTaken(sales, sale.receiptNumber)
    ensures SalesValid(sales + [sale], nextId + 1)
  {
    var r := sales + [sale];
    forall i, j | 0 <= i < j < |r| ensures r[i].id < r[j].id && r[i].receiptNumber != r[j].receiptNumber {
      assert r[i] == sales[i];
      if j < |sales| {
        assert r[j] == sales[j];
      }
    }
  }

  lemma AppendItemsValid(items: seq<SaleItem>, nextId: int, saleId: int, lines: seq<PricedLine>)
    requires ItemsValid(items, nextId)
    ensures ItemsValid(items + ItemsFor(saleId, nextId, lines), nextId + |lines|)
  {
    var added := ItemsFor(saleId, nextId, lines);
    var r := items + added;
    forall i | 0 <= i < |r| ensures 1 <= r[i].id < nextId + |lines| {
      if i >= |items| {
        assert r[i] == added[i - |items|];
      }
    }
    forall i, j | 0 <= i < j < |r| ensures r[i].id < r[j].id {
      if j < |items| {
        assert r[i] == items[i] && r[j] == items[j];
      } else if i < |items| {
        assert r[i] == items[i] && r[j] == added[j - |items|];
      } else {
        assert r[i] == added[i - |items|] && r[j] == added[j - |items|];
      }
    }
  }

  // ---------------------------------------------------------------------------
  // The database object

  class Database {
    var products: seq<Product>
    var nextProductId: int
    var sales: seq<Sale>
    var nextSaleId: int
    var saleItems: seq<SaleItem>
    var nextItemId: int
    var summaries: SummaryTable
    var auditLog: seq<AuditEntry>

    function Contents(): Tables
      reads this
    {
      Tables(products, nextProductId, sales, nextSaleId, saleItems, nextItemId, summaries, auditLog)
    }

    ghost predicate Valid()
      reads this
    {
      TablesValid(Contents())
    }

    /** A freshly created database with empty tables. */
    constructor ()
      ensures Valid()
      ensures Contents() == Tables([], 1, [], 1, [], 1, map[], [])
    {
      products, sales, saleItems, summaries, auditLog := [], [], [], map[], [];
      nextProductId, nextSaleId, nextItemId := 1, 1, 1;
    }

    /** POST /products (routes/products.js:63-110). */
    method CreateProduct(actor: int, input: ProductInput) returns (r: Result<int, ProductError>)
      requires Valid()
      modifies this
      ensures Valid()
      ensures (Contents(), r) == CreateProductStep(old(Contents()), actor, input)
    {
      CreateProductKeepsValid(Contents(), actor, input);
      var errors := FieldErrors(input, true);
      if errors != [] {
        return Err(InvalidFields(errors));
      }
      var row := NewRow(nextProductId, input);
      if BarcodeTaken(products, row.barcode) {
        return Err(DuplicateBarcode);
      }
      products := products + [row];
      r := Ok(nextProductId);
      nextProductId := nextProductId + 1;
      auditLog := auditLog + [AuditEntry(actor, CreateProductAction, "products", r.value)];
    }

    /** PUT /products/:id (routes/products.js:113-159). */
    method UpdateProduct(actor: int, id: int, input: ProductInput) returns (r: Result<int, ProductError>)
      requires Valid()
      modifies this
      ensures Valid()
      ensures (Contents(), r) == UpdateProductStep(old(Contents()), actor, id, input)
    {
      UpdateProductKeepsValid(Contents(), actor, id, input);
      var errors := FieldErrors(input, false);
      if errors != [] {
        return Err(InvalidFields(errors));
      }
      if FindProduct(products, id).None? {
        return Err(NotFound);
      }
      products := ApplyUpdate(products, id, input);
      auditLog := auditLog + [AuditEntry(actor, UpdateProductAction, "products", id)];
      r := Ok(id);
    }

    /** DELETE /products/:id (routes/products.js:162-185). */
    method DeleteProduct(actor: int, id: int) returns (r: Result<int, ProductError>)
      requires Valid()
      modifies this
      ensures Valid()
      ensures (Contents(), r) == DeleteProductStep(old(Contents()), actor, id)
    {
      DeleteProductKeepsValid(Contents(), actor, id);
      if FindProduct(products, id).None? {
        return Err(NotFound);
      }
      products := RemoveRow(products, id);
      auditLog := auditLog + [AuditEntry(actor, DeleteProductAction, "products", id)];
      r := Ok(id);
    }

    /**
     * The `saleItems.forEach` loop after the sale row is inserted
     * (routes/sales.js:186-214): each line becomes a `sale_items` row and
     * lowers its product's stock.
     */
    method WriteLines(saleId: int, lines: seq<PricedLine>)
      modifies this
      ensures products == ApplyLines(old(products), lines)
      ensures saleItems == old(saleItems) + ItemsFor(saleId, old(nextItemId), lines)
      ensures nextItemId == old(nextItemId) + |lines|
      ensures nextProductId == old(nextProductId) && sales == old(sales) && nextSaleId == old(nextSaleId)
      ensures summaries == old(summaries) && auditLog == old(auditLog)
    {
      var itemsInserted := 0;
      while itemsInserted < |lines|
        invariant 0 <= itemsInserted <= |lines|
        invariant products == ApplyLines(old(products), lines[..itemsInserted])
        invariant saleItems == old(saleItems) + ItemsFor(saleId, old(nextItemId), lines[..itemsInserted])
        invariant nextItemId == old(nextItemId) + itemsInserted
        invariant nextProductId == old(nextProductId) && sales == old(sales) && nextSaleId == old(nextSaleId)
        invariant summaries == old(summaries) && auditLog == old(auditLog)
      {
        var saleItem := lines[itemsInserted];
        assert lines[..itemsInserted + 1][..itemsInserted] == lines[..itemsInserted];
        saleItems := saleItems + [SaleItem(nextItemId, saleId, saleItem.productId, saleItem.quantity,
                                           saleItem.unitPrice, saleItem.totalPrice)];
        nextItemId := nextItemId + 1;
        products := Decrement(products, saleItem.productId, saleItem.quantity);
        itemsInserted := itemsInserted + 1;
      }
      assert lines[..itemsInserted] == lines;
    }

    /**
     * The statements of POST /sales after the checks (routes/sales.js:175-262):
     * insert the sale row, write its lines, upsert today's summary and
     * append the audit entry.
     */
    method RecordSale(req: SaleRequest, lines: seq<PricedLine>, totalAmount: int, paidBy: PaymentMethod,
                      receiptNumber: string, today: string) returns (saleId: int)
      requires totalAmount == LinesTotal(lines)
      modifies this
      ensures saleId == old(nextSaleId)
      ensures Contents() == SaleWritten(old(Contents()), req, lines, paidBy, receiptNumber, today)
    {
      saleId := nextSaleId;
      sales := sales + [SaleRow(saleId, receiptNumber, req, totalAmount, paidBy, today)];
      nextSaleId := nextSaleId + 1;
      WriteLines(saleId, lines);
      summaries := UpsertAsWritten(summaries, today, totalAmount, paidBy);
      auditLog := auditLog + [AuditEntry(req.cashierId, CreateSaleAction, "sales", saleId)];
    }

    /**
     * POST /sales (routes/sales.js:97-264). The receipt number and today's
     * date are inputs; the audit entry is written after COMMIT.
     */
    method CreateSale(req: SaleRequest, receiptNumber: string, today: string) returns (r: Result<SaleReceipt, SaleError>)
      requires Valid()
      modifies this
      ensures Valid()
      ensures (Contents(), r) == CreateSaleStep(old(Contents()), req, receiptNumber, today)
    {
      CreateSaleStepValid(Contents(), req, receiptNumber, today);
      var errors := RequestErrors(req.basket, req.paymentMethod);
      if errors != [] {
        return Err(InvalidRequest(errors));
      }
      var paidBy := ParseMethod(req.paymentMethod).value;
      var priced := PriceItems(products, req.basket);
      if priced.Err? {
        return Err(priced.error);
      }
      var lines, totalAmount := priced.value.lines, priced.value.total;
      if ReceiptTaken(sales, receiptNumber) {
        return Err(SaleInsertFailed);
      }
      var saleId := RecordSale(req, lines, totalAmount, paidBy, receiptNumber, today);
      r := Ok(SaleReceipt(saleId, receiptNumber, totalAmount));
    }
  }
}

=== FILE: summaries.dfy ===
/**
 * The `daily_sales_summary` table: one row per date, written by the upsert
 * at the end of sale creation (routes/sales.js:245-262) and read by
 * GET /sales/summary/daily (routes/sales.js:267-299).
 */
module Summaries {
  import opened Wrappers
  import opened Text
  import opened Schema

  /** The table, keyed by its UNIQUE `date` column. */
  type SummaryTable = map<string, DailySummary>

  /** What the `COALESCE((SELECT … WHERE date = ?), 0)` sub-selects read: the row, or zeros. */
  function Stored(rows: SummaryTable, date: string): DailySummary {
    if date in rows then rows[date] else ZeroSummary
  }

  /**
   * The row `INSERT OR REPLACE` writes as the code has it: it names only the
   * paid method's column, so the row that replaces the old one carries the
   * DEFAULT 0 in every other method's column.
   */
  function ReplacedRow(prev: DailySummary, amount: int, m: PaymentMethod): (r: DailySummary)
    ensures r.totalSales == prev.totalSales + amount
    ensures r.totalTransactions == prev.totalTransactions + 1
    ensures Column(r, m) == Column(prev, m) + amount
    ensures forall n :: n != m ==> Column(r, n) == 0
  {
    WithColumn(ZeroSummary, m, Column(prev, m) + amount)
      .(totalSales := prev.totalSales + amount, totalTransactions := prev.totalTransactions + 1)
  }

  /** `updateDailySummary(amount, paymentMethod)` for `date`, as written. */
  function UpsertAsWritten(rows: SummaryTable, date: string, amount: int, m: PaymentMethod): SummaryTable {
    rows[date := ReplacedRow(Stored(rows, date), amount, m)]
  }

  /** The row an additive upsert would write: every other column keeps its value. */
  function AccumulatedRow(prev: DailySummary, amount: int, m: PaymentMethod): (r: DailySummary)
    ensures r.totalSales == prev.totalSales + amount
    ensures r.totalTransactions == prev.totalTransactions + 1
    ensures Column(r, m) == Column(prev, m) + amount
    ensures forall n :: n != m ==> Column(r, n) == Column(prev, n)
  {
    WithColumn(prev, m, Column(prev, m) + amount)
      .(totalSales := prev.totalSales + amount, totalTransactions := prev.totalTransactions + 1)
  }

  /** The upsert with the other payment columns carried over. */
  function Upsert(rows: SummaryTable, date: string, amount: int, m: PaymentMethod): SummaryTable {
    rows[date := AccumulatedRow(Stored(rows, date), amount, m)]
  }

  /** The day's total equals the sum of its five per-method subtotals. */
  predicate Balanced(s: DailySummary) {
    s.totalSales == s.cashSales + s.cardSales + s.debtSales + s.momoSales + s.airtelMoneySales
  }

  /** The additive upsert keeps a balanced row balanced. */
  lemma AccumulatedRowKeepsBalance(prev: DailySummary, amount: int, m: PaymentMethod)
    requires Balanced(prev)
    ensures Balanced(AccumulatedRow(prev, amount, m))
  {
    var r := AccumulatedRow(prev, amount, m);
    match m
    case Cash => assert r.cashSales == prev.cashSales + amount;
    case Card => assert r.cardSales == prev.cardSales + amount;
    case Debt => assert r.debtSales == prev.debtSales + amount;
    case Momo => assert r.momoSales == prev.momoSales + amount;
    case AirtelMoney => assert r.airtelMoneySales == prev.airtelMoneySales + amount;
  }

  /**
   * A day (no row yet) with a cash sale of 100 cents followed by a card sale of
   * 50 cents: the as-written upsert leaves `cash_sales` at 0 and a total that no longer
   * equals its subtotals; the additive upsert keeps both.
   */
  lemma ReplacedRowLosesOtherMethods()
    ensures var after := ReplacedRow(ReplacedRow(ZeroSummary, 100, Cash), 50, Card);
            after.cashSales == 0 && after.cardSales == 50 && after.totalSales == 150 && !Balanced(after)
    ensures var after := AccumulatedRow(AccumulatedRow(ZeroSummary, 100, Cash), 50, Card);
            after.cashSales == 100 && after.cardSales == 50 && after.totalSales == 150 && Balanced(after)
  {
    var first := ReplacedRow(ZeroSummary, 100, Cash);
    assert Column(first, Card) == 0;
    assert Column(ReplacedRow(first, 50, Card), Cash) == 0;
    var first' := AccumulatedRow(ZeroSummary, 100, Cash);
    assert Column(first', Card) == 0;
    assert Column(AccumulatedRow(first', 50, Card), Cash) == 100;
  }

  /** What one committed sale contributes to its day: its total and payment method. */
  datatype Tender = Tender(amount: int, paidBy: PaymentMethod)

  function SumAll(ts: seq<Tender>): int {
    if ts == [] then 0 else SumAll(ts[..|ts| - 1]) + ts[|ts| - 1].amount
  }

  function SumFor(ts: seq<Tender>, m: PaymentMethod): int {
    if ts == [] then 0
    else SumFor(ts[..|ts| - 1], m) + (if ts[|ts| - 1].paidBy == m then ts[|ts| - 1].amount else 0)
  }

  /** The row a day's sales leave behind under the additive upsert, from no row at all. */
  function Tally(ts: seq<Tender>): DailySummary {
    if ts == [] then ZeroSummary
    else AccumulatedRow(Tally(ts[..|ts| - 1]), ts[|ts| - 1].amount, ts[|ts| - 1].paidBy)
  }

  /** The row a day's sales leave behind under the upsert as written. */
  function TallyAsWritten(ts: seq<Tender>): DailySummary {
    if ts == [] then ZeroSummary
    else ReplacedRow(TallyAsWritten(ts[..|ts| - 1]), ts[|ts| - 1].amount, ts[|ts| - 1].paidBy)
  }

  /** With the additive upsert a day's row is exactly the sums and the count of its sales. */
  lemma {:induction false} TallyIsSumOfSales(ts: seq<Tender>)
    ensures Tally(ts).totalSales == SumAll(ts)
    ensures Tally(ts).totalTransactions == |ts|
    ensures forall m :: Column(Tally(ts), m) == SumFor(ts, m)
  {
    if ts != [] {
      TallyIsSumOfSales(ts[..|ts| - 1]);
    }
  }

  /**
   * As written, the total and the count are still right, but a method's column
   * holds only the sales since the last sale paid another way.
   */
  lemma {:induction false} TallyAsWrittenKeepsTotals(ts: seq<Tender>)
    ensures TallyAsWritten(ts).totalSales == SumAll(ts)
    ensures TallyAsWritten(ts).totalTransactions == |ts|
    ensures ts != [] ==> forall m :: m != ts[|ts| - 1].paidBy ==> Column(TallyAsWritten(ts), m) == 0
    ensures (forall i | 0 <= i < |ts| :: ts[i].paidBy == ts[0].paidBy) ==>
              forall m :: Column(TallyAsWritten(ts), m) == SumFor(ts, m)
  {
    if ts != [] {
      TallyAsWrittenKeepsTotals(ts[..|ts| - 1]);
      if forall i | 0 <= i < |ts| :: ts[i].paidBy == ts[0].paidBy {
        var init := ts[..|ts| - 1];
        assert forall i | 0 <= i < |init| :: init[i].paidBy == init[0].paidBy;
        forall m ensures Column(TallyAsWritten(ts), m) == SumFor(ts, m) {
          if m != ts[0].paidBy {
            SumForOtherMethod(ts, m);
          }
        }
      }
    }
  }

  lemma {:induction false} SumForOtherMethod(ts: seq<Tender>, m: PaymentMethod)
    requires forall i | 0 <= i < |ts| :: ts[i].paidBy != m
    ensures SumFor(ts, m) == 0
  {
    if ts != [] {
      SumForOtherMethod(ts[..|ts| - 1], m);
    }
  }

  /** The response of GET /sales/summary/daily: the date asked about and its row. */
  datatype SummaryView = SummaryView(date: string, summary: DailySummary)

  /** The date GET /sales/summary/daily reads: `date || today`. */
  function TargetDate(date: Option<string>, today: string): string {
    if Given(date) then date.value else today
  }

  /** GET /sales/summary/daily: the stored row, or the all-zero record for a date without one. */
  function ReadSummary(rows: SummaryTable, date: Option<string>, today: string): (r: SummaryView)
    ensures Given(date) ==> r.date == date.value
    ensures !Given(date) ==> r.date == today
    ensures r.date in rows ==> r.summary == rows[r.date]
    ensures r.date !in rows ==> r.summary.totalSales == 0 && r.summary.totalTransactions == 0
                                && forall m :: Column(r.summary, m) == 0
  {
    var d := TargetDate(date, today);
    SummaryView(d, Stored(rows, d))
  }

  /**
   * One sale on `d` moves the row read for `d` by exactly its amount and one
   * transaction, clears the other methods' columns, and leaves every other
   * date's reading as it was.
   */
  lemma ReadAfterSale(rows: SummaryTable, d: string, amount: int, m: PaymentMethod, other: string)
    ensures var before := ReadSummary(rows, Some(d), d).summary;
            var after := ReadSummary(UpsertAsWritten(rows, d, amount, m), Some(d), d).summary;
            after.totalSales == before.totalSales + amount
            && after.totalTransactions == before.totalTransactions + 1
            && Column(after, m) == Column(before, m) + amount
            && forall n :: n != m ==> Column(after, n) == 0
    ensures other != d ==>
            ReadSummary(UpsertAsWritten(rows, d, amount, m), Some(other), other)
              == ReadSummary(rows, Some(other), other)
  {
  }

  /**
   * Under the additive upsert one sale on `d` moves the row read for `d` by
   * its amount and one transaction, keeps the other methods' columns, and
   * leaves every other date's reading as it was.
   */
  lemma ReadAfterAccumulatedSale(rows: SummaryTable, d: string, amount: int, m: PaymentMethod, other: string)
    ensures var before := ReadSummary(rows, Some(d), d).summary;
            var after := ReadSummary(Upsert(rows, d, amount, m), Some(d), d).summary;
            after.totalSales == before.totalSales + amount
            && after.totalTransactions == before.totalTransactions + 1
            && Column(after, m) == Column(before, m) + amount
            && forall n :: n != m ==> Column(after, n) == Column(before, n)
    ensures other != d ==>
            ReadSummary(Upsert(rows, d, amount, m), Some(other), other)
              == ReadSummary(rows, Some(other), other)
  {
  }

  /** Under the additive upsert every balanced day stays balanced after a sale. */
  lemma UpsertKeepsBalance(rows: SummaryTable, d: string, amount: int, m: PaymentMethod)
    requires forall e | e in rows :: Balanced(rows[e])
    ensures forall e | e in Upsert(rows, d, amount, m) :: Balanced(Upsert(rows, d, amount, m)[e])
  {
    AccumulatedRowKeepsBalance(Stored(rows, d), amount, m);
  }
}

=== FILE: text.dfy ===
/**
 * The string operations the routes rely on: express-validator's `trim()`
 * sanitizer, SQLite's `LIKE '%…%'` pattern (case-insensitive for ASCII
 * letters only) and SQLite's default BINARY collation used by `ORDER BY`.
 */
module Text {
  import opened Wrappers

  /** A query parameter that JavaScript's `if (param)` treats as present: sent and not empty. */
  predicate Given(param: Option<string>) {
    param.Some? && param.value != ""
  }

  /** The characters JavaScript's `\s` class matches, which `trim()` strips. */
  predicate IsSpace(c: char) {
    c in {' ', '\t', '\n', '\r', '\U{000B}', '\U{000C}', '\U{00A0}', '\U{1680}',
          '\U{2028}', '\U{2029}', '\U{202F}', '\U{205F}', '\U{3000}', '\U{FEFF}'}
    || '\U{2000}' <= c <= '\U{200A}'
  }

  /** Every character is white space (the empty string included). */
  predicate Blank(s: string) {
    forall i | 0 <= i < |s| :: IsSpace(s[i])
  }

  /** `s` without its leading white space. */
  function TrimStart(s: string): string {
    if s != [] && IsSpace(s[0]) then TrimStart(s[1..]) else s
  }

  /** `s` without its trailing white space. */
  function TrimEnd(s: string): string {
    if s != [] && IsSpace(s[|s| - 1]) then TrimEnd(s[..|s| - 1]) else s
  }

  /** TrimStart drops a blank prefix and stops at the first character that is not white space. */
  lemma {:induction false} TrimStartDropsBlankPrefix(s: string)
    ensures var r := TrimStart(s);
      |r| <= |s| && r == s[|s| - |r|..] && Blank(s[..|s| - |r|]) && (r == [] || !IsSpace(r[0]))
  {
    if s != [] && IsSpace(s[0]) {
      TrimStartDropsBlankPrefix(s[1..]);
      var r := TrimStart(s[1..]);
      assert s[1..][|s| - 1 - |r|..] == s[|s| - |r|..];
      var p := s[..|s| - |r|];
      forall i | 0 <= i < |p| ensures IsSpace(p[i]) {
        if i > 0 {
          assert p[i] == s[1..][..|s| - 1 - |r|][i - 1];
        }
      }
    }
  }

  /** TrimEnd drops a blank suffix and stops at the last character that is not white space. */
  lemma {:induction false} TrimEndDropsBlankSuffix(s: string)
    ensures var r := TrimEnd(s);
      |r| <= |s| && r == s[..|r|] && Blank(s[|r|..]) && (r == [] || !IsSpace(r[|r| - 1]))
  {
    if s != [] && IsSpace(s[|s| - 1]) {
      var t := s[..|s| - 1];
      TrimEndDropsBlankSuffix(t);
      var r := TrimEnd(t);
      assert t[..|r|] == s[..|r|];
      var q := s[|r|..];
      forall i | 0 <= i < |q| ensures IsSpace(q[i]) {
        if i < |q| - 1 {
          assert q[i] == t[|r|..][i];
        }
      }
    }
  }

  /** What `body(field).trim()` leaves in the request body. */
  function Trim(s: string): (r: string)
    ensures |r| <= |s|
    ensures r == [] <==> Blank(s)
    ensures r != [] ==> !IsSpace(r[0]) && !IsSpace(r[|r| - 1])
  {
    TrimmedBlankIffBlank(s);
    TrimEnd(TrimStart(s))
  }

  lemma TrimmedBlankIffBlank(s: string)
    ensures |TrimEnd(TrimStart(s))| <= |s|
    ensures TrimEnd(TrimStart(s)) == [] <==> Blank(s)
    ensures TrimEnd(TrimStart(s)) != [] ==>
              !IsSpace(TrimEnd(TrimStart(s))[0]) && !IsSpace(TrimEnd(TrimStart(s))[|TrimEnd(TrimStart(s))| - 1])
  {
    var t := TrimStart(s);
    var r := TrimEnd(t);
    TrimStartDropsBlankPrefix(s);
    TrimEndDropsBlankSuffix(t);
    var lead := |s| - |t|;
    if r == [] {
      if t != [] {
        // t[0] is not white space, yet TrimEnd found all of t blank
        assert false;
      }
      forall i | 0 <= i < |s| ensures IsSpace(s[i]) {
        assert s[i] == s[..lead][i];
      }
    } else {
      assert s[lead] == t[0] == r[0];
    }
  }

  /** Trimming keeps the middle: the result is a slice of `s` with only white space around it. */
  lemma TrimKeepsMiddle(s: string)
    ensures exists a, b :: 0 <= a <= b <= |s| && Trim(s) == s[a..b] && Blank(s[..a]) && Blank(s[b..])
  {
    var t := TrimStart(s);
    var r := TrimEnd(t);
    TrimStartDropsBlankPrefix(s);
    TrimEndDropsBlankSuffix(t);
    var a := |s| - |t|;
    var b := a + |r|;
    assert r == s[a..b];
    assert s[b..] == t[|r|..];
  }

  /** ASCII case folding, the only folding SQLite's built-in LIKE performs. */
  function FoldAscii(c: char): char {
    if 'A' <= c <= 'Z' then (c as int + 32) as char else c
  }

  predicate EqualFolded(a: string, b: string) {
    |a| == |b| && forall i | 0 <= i < |a| :: FoldAscii(a[i]) == FoldAscii(b[i])
  }

  /** `hay LIKE '%' || needle || '%'`, for a needle without `%` or `_`. */
  predicate Like(hay: string, needle: string) {
    |needle| <= |hay| && (EqualFolded(hay[..|needle|], needle) || Like(hay[1..], needle))
  }

  /** The window of `hay` starting at `k` equals `needle` up to ASCII case. */
  predicate MatchesAt(hay: string, needle: string, k: int) {
    0 <= k <= |hay| - |needle| && EqualFolded(hay[k..k + |needle|], needle)
  }

  /** Like holds exactly when some window of `hay` equals `needle` up to ASCII case. */
  lemma {:induction false} LikeIffWindow(hay: string, needle: string)
    ensures Like(hay, needle) <==> exists k :: MatchesAt(hay, needle, k)
  {
    if |needle| <= |hay| {
      if EqualFolded(hay[..|needle|], needle) {
        assert hay[0..0 + |needle|] == hay[..|needle|];
        assert MatchesAt(hay, needle, 0);
      } else {
        LikeIffWindow(hay[1..], needle);
        if Like(hay, needle) {
          var k :| MatchesAt(hay[1..], needle, k);
          WindowOfTail(hay, k, |needle|);
          assert MatchesAt(hay, needle, k + 1);
        }
        if exists k :: MatchesAt(hay, needle, k) {
          var k :| MatchesAt(hay, needle, k);
          assert k != 0;
          WindowOfTail(hay, k - 1, |needle|);
          assert MatchesAt(hay[1..], needle, k - 1);
        }
      }
    }
  }

  /** A window of `hay[1..]` is the window of `hay` one position later. */
  lemma WindowOfTail(hay: string, k: int, n: int)
    requires 0 <= k && 0 <= n && k + n + 1 <= |hay|
    ensures hay[1..][k..k + n] == hay[k + 1..k + 1 + n]
  {
    var shifted, window := hay[1..][k..k + n], hay[k + 1..k + 1 + n];
    forall j | 0 <= j < n ensures shifted[j] == window[j] {
      assert shifted[j] == hay[k + 1 + j];
    }
  }

  /** SQLite's BINARY collation: code-point order, a proper prefix sorting first. */
  predicate LexLe(a: string, b: string) {
    a == [] || (b != [] && (a[0] < b[0] || (a[0] == b[0] && LexLe(a[1..], b[1..]))))
  }

  lemma {:induction false} LexLeTotal(a: string, b: string)
    ensures LexLe(a, b) || LexLe(b, a)
  {
    if a != [] && b != [] && a[0] == b[0] {
      LexLeTotal(a[1..], b[1..]);
    }
  }

  lemma {:induction false} LexLeTransitive(a: string, b: string, c: string)
    requires LexLe(a, b) && LexLe(b, c)
    ensures LexLe(a, c)
  {
    if a != [] && a[0] == b[0] && b[0] == c[0] {
      LexLeTransitive(a[1..], b[1..], c[1..]);
    }
  }
}

=== FILE: wrappers.dfy ===
/** Failure-carrying result types shared by every module of the model. */
module Wrappers {

  datatype Option<+T> = None | Some(value: T)

  /** The outcome of an operation: a value, or the error the route would answer with. */
  datatype Result<+T, +E> = Ok(value: T) | Err(error: E)
}
